=== FILE: README.md ===
# Storefront rules, modelled in Dafny

This project models the business rules underneath a small Django storefront
(catalog, phone-number accounts, profiles, wishlists, referral threads and
their order statistics). The web framework, the templates and the database
engine are not modelled. Tables are sequences or maps. Instants are integer
microseconds. Each rule is a function or a method over that in-memory store.

| module (file) | source | what it holds |
|---|---|---|
| `Values` (values.dfy) | — | Option, Result, the `ValueError`/`IntegrityError` exceptions, loosely typed field values and Python truthiness |
| `Shop` (shop.dfy) | apps/models.py | the order status enumeration and default, Product/Thread/Order/WishList records, the WishList table |
| `Slugs` (slugs.dfy) | apps/models.py | `BaseSlug.save`: the uniqueness loop as written and corrected, and the table it saves into |
| `Users` (users.dfy) | apps/models.py | `CustomUserManager` and the User table with its unique phone number |
| `Forms` (forms.dfy) | apps/forms.py | phone-number normalisation and `ProfileModelForm.clean` |
| `Accounts` (accounts.dfy) | apps/views.py | login-or-register and the profile update |
| `Catalog` (catalog.dfy) | apps/views.py | the market and category product lists |
| `Wishlist` (wishlist.dfy) | apps/views.py | the wishlist toggle |
| `Statistics` (statistics.dfy) | apps/views.py | the period map, the per-thread NEW counts and the rollup of the thread statistics view |

Form of the model:
- State that the source changes in place is a class with methods:
  - the slug table and the entity being saved;
  - the user table;
  - the wishlist table;
  - the bound profile form.
- Pure computations are functions:
  - the phone normaliser;
  - the period map, the filters, the counts and the rollup;
  - the catalog lists.
- Foreign functions are `const` arrow-typed fields of the tables, supplied at construction: `slugify`, `make_password`, `check_password` and `normalize_email`.

Behaviour kept as the code has it, though evidently unintended:
- The slug loop tests the stale slug field. It therefore never disambiguates, and re-saving a stored entity never returns (see Findings).
- The login form strips the password before hashing it, but the login check reads the raw submitted password. A password with surrounding whitespace therefore never matches again (see Findings).
- The "today" start zeroes hour, minute and second but keeps the microseconds.
- The weekly key is spelled `wekly`, so `weekly` means "no filter". The `wekly` start is this week's Monday at the current time of day, not at midnight.
- The "monthly" start is the 30th of the current month, which is in the future before the 30th.
- The period dictionary is built eagerly. In February every request raises `ValueError`, whatever period it asks for, including none.
- An unknown period token means no time filter.
- Profile pruning treats every falsy value as "not supplied", so no profile field can be cleared.

## Model

| member | source | states |
|---|---|---|
| Slugs.SlugEntity.constructor | apps/models.py:72-73 | a new entity has no primary key, and its slug field starts as the empty string |
| Slugs.SlugTable.Persist | apps/models.py:86-90 | the parent save with the forwarded defaults updates the row under the entity's key, or inserts under the next auto-increment key, which is not yet stored |
| Slugs.SlugEntity.SaveAsWritten | apps/models.py:74-90 | for every iteration bound, the loop ends exactly when no row holds the entity's stale slug. It then stores the bare `slugify(name)` and forwards `False, False, None, None` whatever keyword options the caller passed. Otherwise it never returns and changes nothing |
| Slugs.AsWrittenResaveNeverReturns | apps/models.py:83-84 | as written, saving an entity whose own row holds its slug never returns |
| Slugs.AsWrittenSlug | apps/models.py:82-85 | no contract of its own: the slug the as-written loop stores, or none when it never returns. `SlugEntity.SaveAsWritten` is proved against it, and `AsWrittenDuplicatesSlug` states its consequence |
| Slugs.AsWrittenDuplicatesSlug | apps/models.py:82-85 | as written, a new entity whose slugified name is already stored gets that same slug, and two rows then share it |
| Slugs.AsWrittenDuplicateExample | apps/models.py:82-85 | concrete case: with "shoes" stored, a second "shoes" product is stored as "shoes" |
| Slugs.AsWrittenEmptySlugBlocksInserts | apps/models.py:83-84 | as written, once any row holds the empty slug, saving any new entity never returns |
| Slugs.SlugEntity.Save | apps/models.py:82-90 | corrected loop: the stored slug is `slugify(name)` plus the least number of "-1" suffixes absent from the other rows. The row is written under the entity's key, the forwarded options are the defaults, and unique slugs stay unique |
| Slugs.Suffix | apps/models.py:84 | k appended suffixes make the candidate 2k characters longer |
| Slugs.SuffixedStep | apps/models.py:84 | one more loop iteration appends exactly "-1" to the candidate |
| Slugs.LongerCandidatesShrink | apps/models.py:83-84 | each taken candidate strictly shrinks the set of taken slugs at least as long as the candidate, so the corrected loop ends on a finite table |
| Slugs.FreeSuffixFrom | apps/models.py:83-84 | the suffix count found is free, at least the starting count, and every smaller count is taken |
| Slugs.FreeSlugIsLeastFree | apps/models.py:82-84 | the corrected slug is absent from the taken slugs, and it is the base plus k suffixes with every shorter candidate taken |
| Slugs.LeastFreeSuffixIsUnique | apps/models.py:82-84 | a count that is free while all smaller counts are taken is the least free count |
| Shop.Status.Value | apps/models.py:126-133 | no contract of its own: the stored value of each `TextChoices` member, specified by `StatusValuesDistinct` |
| Shop.StatusValuesDistinct | apps/models.py:126-143 | distinct statuses store distinct values, and the default status is stored as "new" |
| Shop.Without | apps/views.py:140 | bulk delete removes every copy of the pair and keeps every other row as often as it was stored |
| Shop.WishListTable.Contains | apps/views.py:137-139 | no contract of its own: `exists()` on the user's rows for the product, which `WishlistView` and `ToggleResponseIsPresence` relate to the toggle |
| Shop.WishListTable.DeleteMatching | apps/views.py:140 | the table afterwards is the old table without the pair |
| Shop.WishListTable.Create | apps/views.py:142 | the table afterwards is the old table plus one row for the pair |
| Wishlist.WishlistView | apps/views.py:135-144 | present pair: every matching row is deleted and the response is false. Absent pair: one row is created and the response is true. The response is true exactly when the pair is present afterwards |
| Wishlist.Toggled | apps/views.py:137-144 | no contract of its own: the rows and response of one toggle. `WishlistView` is proved against it, and the three toggle lemmas specify it |
| Wishlist.ToggleResponseIsPresence | apps/views.py:137-144 | the response equals presence afterwards, and equals absence before |
| Wishlist.ToggleLeavesOtherPairs | apps/views.py:137-144 | a toggle leaves every other pair's rows unchanged |
| Wishlist.ToggleTwiceRestoresPresence | apps/views.py:137-144 | two toggles restore the pair's presence and give opposite responses. With at most one stored copy the rows are restored too |
| Users.IndexOfPhone | apps/views.py:94-96 | the first user with the phone number, or none exactly when no user has it |
| Users.Falsy | apps/models.py:14 | no contract of its own: `not phone_number`, the test on which `CreateUserRecord`, `CreateUser` and `CreateSuperuser` state the `ValueError` |
| Users.SetDefault | apps/models.py:23-24 | `setdefault` adds the key with the default only when it is absent and changes no other key |
| Users.UserExtraFields | apps/models.py:23-24 | no contract of its own: the extra fields `create_user` passes on, specified by `UserFlagsDefaultToFalse` |
| Users.SuperuserExtraFields | apps/models.py:28-34 | no contract of its own: the fields `create_superuser` passes on or the error it raises, specified by `SuperuserFlagsMustBeTrue` |
| Users.UserFlagsDefaultToFalse | apps/models.py:22-25 | `create_user` defaults each flag to False only when it is absent, keeps caller values, and passes the other fields through |
| Users.SuperuserFlagsMustBeTrue | apps/models.py:27-34 | `create_superuser` succeeds exactly when each flag is absent or exactly True. A non-True staff flag raises the staff error first. On success both flags are True |
| Users.UserTable.Insert | apps/models.py:55 | a duplicate phone number is rejected with an integrity error and the table is unchanged. Otherwise the row is appended under the next key |
| Users.UserTable.CreateUserRecord | apps/models.py:12-20 | an empty phone raises `ValueError` and nothing is stored. Otherwise the row holds the normalised email, the model defaults overridden by the extra fields, and the hash of the password |
| Users.UserTable.CreateUser | apps/models.py:22-25 | `_create_user` with the flags defaulted to False. It fails exactly on an empty or already stored phone: `ValueError` for an empty one, the integrity error for a stored one. Failures change nothing. A success appends one row |
| Users.UserTable.CreateSuperuser | apps/models.py:27-36 | it fails exactly on a rejected flag, an empty phone or an already stored phone. The flag errors come first, then `ValueError` for an empty phone, then the integrity error for a duplicate. Failures change nothing. A success appends one row with both flags True |
| Users.UserTable.Update | apps/views.py:125 | the named fields of the matching user are overwritten. A key with no user changes nothing |
| Forms.Digits | apps/forms.py:18 | the kept characters are all digits and no more than the input |
| Forms.DigitsOfConcat | apps/forms.py:18 | the digits of a concatenation are the digits of its parts, in order |
| Forms.DigitsOfDigitsOnly | apps/forms.py:18 | an all-digit string is kept whole, and a digit-free string vanishes |
| Forms.DigitsKeepsEveryDigit | apps/forms.py:18 | every digit occurs in the result as often as in the input, and no non-digit survives |
| Forms.CleanPhoneNumberShape | apps/forms.py:16-18 | the result is "+" followed by exactly the input's digits. Its length is one more than the digit count. "+" is its only non-digit. No digits gives "+" |
| Forms.CleanPhoneNumber | apps/forms.py:16-18 | no contract of its own: `clean_phone_number`, specified by `CleanPhoneNumberShape`, `CleanPhoneNumberIdempotent` and `CleanPhoneNumberFixedPoints` |
| Forms.CleanPhoneNumberIdempotent | apps/forms.py:57-59 | normalising a normalised number returns it unchanged |
| Forms.CleanPhoneNumberFixedPoints | apps/forms.py:16-18 | normalisation leaves a string unchanged exactly when it is "+" followed by digits |
| Forms.StripLeading | apps/forms.py:12-13 | the result is a suffix of the input. Only whitespace was removed, and it does not start with whitespace |
| Forms.Strip | apps/forms.py:12-13 | no contract of its own: the stripping a `CharField` applies, specified by `StripKeepsTheMiddle`, `StripEnds`, `StripFixedPoints` and `StripIdempotent` |
| Forms.StripTrailing | apps/forms.py:12-13 | the result is a prefix of the input. Only whitespace was removed, and it does not end with whitespace |
| Forms.StripKeepsTheMiddle | apps/forms.py:12-13 | the stripped value is a contiguous middle of the input with only whitespace around it |
| Forms.StripEnds | apps/forms.py:12-13 | neither end of a stripped value is whitespace |
| Forms.StripFixedPoints | apps/forms.py:12-13 | stripping leaves a value unchanged exactly when neither end is whitespace |
| Forms.StripIdempotent | apps/forms.py:12-13 | stripping twice equals stripping once |
| Forms.DigitsIgnoreLeadingSpace | apps/forms.py:16-18 | removing leading whitespace keeps the digits |
| Forms.DigitsIgnoreTrailingSpace | apps/forms.py:16-18 | removing trailing whitespace keeps the digits |
| Forms.DigitsIgnoreSurroundingSpace | apps/forms.py:16-18 | the digits of the stripped phone input are those of the raw input |
| Forms.BoundData | apps/forms.py:25-32 | cleaned data holds every profile field and nothing else, so no field is required. Each submitted value is cleaned by its field (`Forms.CleanedValue`), and a left-out field is empty |
| Forms.CleanedValue | apps/forms.py:30-32 | no contract of its own: a `CharField` strips a submitted string and the district value passes as resolved, specified by `BoundTextIsStripped` and used in `ProfileUpdateChangesOnlySurvivingFields` |
| Forms.BoundTextIsStripped | apps/forms.py:30-32 | every text value of the cleaned data is already stripped, and a whitespace-only text field cleans to a falsy value |
| Values.Truthy | apps/forms.py:40 | no contract of its own: Python truthiness of a field value, the test `clean` applies, used in `PrunedEntries` and `BoundTextIsStripped` |
| Forms.PrunedEntries | apps/forms.py:37-42 | pruning removes exactly the falsy entries, keeps the others unchanged, and yields a subset of the keys |
| Forms.Pruned | apps/forms.py:37-42 | no contract of its own: the map `clean` leaves, specified by `PrunedEntries` and `PrunedIdempotent`; `ProfileForm.Clean` is proved against it |
| Forms.PrunedIdempotent | apps/forms.py:37-42 | pruning twice equals pruning once |
| Forms.EmptySubmissionPrunesToNothing | apps/forms.py:25-28 | an empty submission is accepted and prunes to the empty map |
| Forms.ProfileForm.constructor | apps/forms.py:25-28 | binding a submission fills every profile field with its cleaned value, with the left-out ones empty |
| Forms.ProfileForm.Clean | apps/forms.py:37-42 | deleting falsy keys while walking a copy leaves exactly the pruned map, which it also returns |
| Accounts.LoginOrRegister | apps/views.py:94-104 | known phone: when the test passes the user is logged in and its `last_login` is stamped, with the stored hash kept (a re-hash on check is not modelled). Otherwise it is a wrong password and nothing changes. Unknown phone: one user is appended with the phone and the hash, stamped, and logged in |
| Accounts.Stamped | apps/views.py:98-104 | no contract of its own: the `last_login` write of `login()`, which `LoggedInOrRegistered` applies to the logged-in row |
| Accounts.LoggedInOrRegistered | apps/views.py:94-104 | no contract of its own: the effect of one login on the User rows, which the login methods ensure and `RegisteredRowIsFound` uses |
| Accounts.LoginSubmitted | apps/views.py:89-106 | no contract of its own: `form_valid` as written, which `LoginFormValid` ensures and `AsWrittenPaddedPasswordLocksOut` reasons about |
| Accounts.CorrectedLoginSubmitted | apps/views.py:89-106 | no contract of its own: `form_valid` with the check reading the stripped password, which `CorrectedLoginFormValid` ensures and `CorrectedReloginAcceptsSamePassword` reasons about |
| Accounts.LoginFormValid | apps/views.py:89-106 | as written: the phone and password are stripped, and registration stores the hash of the stripped password. The check against a stored user reads the raw submitted password. Logging in stamps `last_login` |
| Accounts.CorrectedLoginFormValid | apps/views.py:89-106 | corrected: the same login, with the check reading the stripped password whose hash registration stores |
| Accounts.LookupPhoneIsNormalisedInput | apps/forms.py:16-18 | the phone number looked up is the normalised raw input, because stripping removes no digits |
| Accounts.RegisteredRowIsFound | apps/views.py:94-104 | after a registration the new row is the first with that phone number, and it holds the registered hash |
| Accounts.PaddedPasswordIsStripped | apps/forms.py:12-13 | " pw " is changed by stripping |
| Accounts.AsWrittenPaddedPasswordLocksOut | apps/views.py:92-103 | as written, with an exact hasher: after registering with a password that stripping changes, logging in again with that same password is refused and changes nothing |
| Accounts.CorrectedReloginAcceptsSamePassword | apps/views.py:92-103 | corrected, with an exact hasher: a returning user is let in exactly when the typed password strips to the registered one, so retyping it always succeeds |
| Accounts.ProfileUpdated | apps/views.py:125 | no contract of its own: a user's fields after the update with the cleaned data, specified by `ProfileUpdateChangesOnlySurvivingFields`; `ProfileFormValid` is proved against it |
| Accounts.ProfileUpdateChangesOnlySurvivingFields | apps/views.py:123-126 | only the profile fields whose cleaned value is truthy change, and they get the cleaned (stripped) value. Blank, whitespace-only, missing and non-profile keys leave the stored fields as they were |
| Accounts.ProfileFormValid | apps/views.py:123-126 | the user's row gets the pruned submission merged in, and no other row changes |
| Catalog.FilterBySlug | apps/views.py:55-56 | no contract of its own: the `category__slug` filter applied unless the slug is "all" (also apps/views.py:77-78), specified by `MarketProductsContents`, `CategoryProductsContents` and `FilterKeepsNewestFirst` |
| Catalog.WithCategorySlug | apps/views.py:56 | the filter keeps each product of the category as often as stored, and no other product |
| Catalog.PrependNewestFirst | apps/views.py:54 | a product no older than a newest-first list may lead it |
| Catalog.InsertNewestFirst | apps/views.py:54 | inserting keeps the list newest first and adds exactly one product |
| Catalog.OrderNewestFirst | apps/views.py:54 | `order_by('-created_at')` yields a newest-first permutation of the products |
| Catalog.FilterKeepsNewestFirst | apps/views.py:54-56 | filtering a newest-first list keeps it newest first |
| Catalog.MarketProductsContents | apps/views.py:51-59 | "all" lists every product. Any other slug lists exactly that category's products. The list is newest first either way |
| Catalog.MarketProducts | apps/views.py:54-57 | no contract of its own: the market list, specified by `MarketProductsContents` |
| Catalog.CategoryProductsContents | apps/views.py:73-81 | "all" lists the product table itself. Any other slug lists exactly the products of that category |
| Catalog.CategoryProducts | apps/views.py:76-78 | no contract of its own: the category list, specified by `CategoryProductsContents` |
| Statistics.StartDateFailsInShortMonths | apps/views.py:205-211 | the view raises `ValueError` exactly in months shorter than 30 days, for every period including none |
| Statistics.Periods | apps/views.py:205-211 | no contract of its own: the period dictionary or the error building it raises, specified by `StartDateFailsInShortMonths` and `PeriodStarts` |
| Statistics.StartDate | apps/views.py:205-211 | no contract of its own: the start for a period token, specified by `UnknownPeriodHasNoStart`, `PeriodStarts` and the window lemmas |
| Statistics.UnknownPeriodHasNoStart | apps/views.py:211-215 | any token other than the four keys, including a missing one and "weekly", gives no start |
| Statistics.Moment.Weekday | apps/views.py:208 | no contract of its own: `weekday()` with Monday as 0, specified by `MondayOfTheWeek` |
| Statistics.MondayOfTheWeek | apps/views.py:208 | moving back by the weekday lands on a Monday |
| Statistics.PeriodStarts | apps/views.py:205-210 | today: hour, minute and second zeroed, microseconds kept. last_day: one day before that. wekly: this week's Monday at the current time. monthly: the 30th of the month |
| Statistics.TodayWindow | apps/views.py:206 | the today start is within a second after midnight and not after now. With nonzero microseconds, midnight itself is excluded |
| Statistics.MonthlyWindowIsInTheFuture | apps/views.py:209 | up to the 30th, no order placed before the request falls in the monthly window |
| Statistics.NewStatusNamesTheAnnotation | apps/views.py:228 | `Sum(Order.StatusType.NEW)` names the `new` annotation |
| Statistics.WindowOrders | apps/views.py:215 | the joined orders of a thread are exactly its orders since the start |
| Statistics.AnnotatedRows | apps/views.py:213-217 | a row appears exactly when its thread belongs to the requester and, given a start, has an order since then. Its count is the thread's NEW orders in the window |
| Statistics.Annotated | apps/views.py:213-217 | no contract of its own: the filtered, annotated rows, specified by `AnnotatedRows` and `SumNewCountsUsersNewOrders` |
| Statistics.CountNew | apps/views.py:217 | no contract of its own: the `Count` of NEW orders, specified by `CountNewOfConcat`, `NewOrdersOfOneThread` and `SumNewCountsUsersNewOrders` |
| Statistics.CountNewOfConcat | apps/views.py:217 | NEW counts add over concatenation |
| Statistics.NewOrdersOfDisjointUnion | apps/views.py:217 | NEW orders of disjoint thread sets add up |
| Statistics.NewOrdersOfOneThread | apps/views.py:217 | counting NEW orders of one thread over the order table equals its annotation |
| Statistics.SumNewOfConcat | apps/views.py:228 | the NEW sum adds over concatenation |
| Statistics.SumNewCountsUsersNewOrders | apps/views.py:213-228 | given distinct thread keys, the summed per-thread counts equal the NEW orders in the window on all of the requester's threads |
| Statistics.GetQuerysetRollup | apps/views.py:226-229 | both sums are none exactly when no thread is selected. Otherwise `all_visit` sums the selected visits and `new_all` counts the requester's NEW orders in the window |
| Statistics.RollupOf | apps/views.py:226-229 | no contract of its own: the aggregate over the rows, specified by `GetQuerysetRollup` |
| Statistics.GetQueryset | apps/views.py:201-237 | no contract of its own: the whole view, specified by `GetQuerysetRollup` and `TodayExample` |
| Statistics.TodayExample | apps/views.py:201-237 | a thread with 5 visits, one NEW and one DELIVERED order today, lists 1 NEW order and rolls up to 5 visits and 1 NEW |

## Left out

- Slugs.SlugEntity.SaveAsWritten: a loop that never ends is shown by a `fuel` bound on the iterations, because a non-terminating loop cannot be written in this setting. The postcondition holds for every bound, so the loop exits for none of them.
- Slugs.SlugEntity.SaveAsWritten: positional arguments that `*args` passes on to the parent `save` are not modelled. Only keyword options are, and they are replaced by the defaults.
- Forms.BoundData: the district value is taken as already resolved to its instance or empty. The model choice field's lookup and its validation error are not modelled.
- Accounts.LoginOrRegister: an accepted `check_password` may re-hash the password and save the new hash, when the stored hash is out of date (for example after the hasher's iteration count rises). This write is not modelled: `Accounts.LoggedInOrRegistered` keeps the stored hash on an accepted login and stamps only `last_login`. The same raw password would still be accepted against the new hash.
- `slugify`, `make_password`, `check_password` and `normalize_email` are foreign library code. They are uninterpreted constants supplied with the tables. The model does not state that a hash differs from the raw password.
- Python's `\D` is Unicode-aware. The model assumes ASCII digits '0'..'9'.
- `PhoneNumberField` validation and normalisation are not modelled. Phone numbers are plain strings.
- `self.model(**extra_fields)` raising `TypeError` on an unknown or repeated keyword is not modelled. Extra fields are a map of column values.
- Field validation inside `ProfileModelForm`, such as whether a district exists, is not modelled. `ProfileModelForm.save(commit=False)` is not modelled either, because the profile view never calls it.
- Sessions (`login`), `messages`, `redirect`, `JsonResponse`, templates, `LoginRequiredMixin`, `get_districts`, the URL table and the admin registration are framework plumbing. The login outcome only says whom the view logs in. Of `login()` only the `last_login` stamp is modelled; the session is not.
- The form checks that run before `form_valid` are not modelled: the required fields, the 255-character limit, the check box, and the rejection of null characters. The login view is modelled for any input.
- The `HashMatchesOnlyItsPassword` premise of the password lemmas is an assumption about Django's hasher: `check_password(raw, make_password(p))` holds exactly when `raw == p`. Hash collisions are not modelled.
- The whitespace that `str.strip()` removes is written out as a fixed list of characters, the ones Python's `str.isspace` accepts. No Unicode character database is consulted.
- `OrderFormView`, `HomeListView`, `ProductDetailView` and `WishListView` are plain query wrappers and are not modelled. The default order status is `Shop.DefaultStatus`.
- A missing or invalid `product_id` in the wishlist request is not modelled. Products are natural-number keys.
- Concurrent saves and toggles, and their check-then-act races, are not modelled. Each request runs alone.
- Time zones and daylight saving are not modelled. A `Moment`'s day of month, month length and epoch day are taken as given, not derived from a calendar.
- Statistics rows and the category list come in table order, because the source sets no ordering for them (apps/views.py:76, 213-217); the database may return them in any order. The market list orders products created at the same instant as insertion sorting does, whereas the database leaves that order open.
- Users are never deleted, so a user's primary key is its position in the table.
- The commented-out statistics view, decimal prices and image uploads are not modelled.

## Findings

| source | as written | input that shows it | evidently intended | confidence | as-written member | corrected member |
|---|---|---|---|---|---|---|
| apps/models.py:83 | `while ...filter(slug=self.slug).exists()` tests the entity's stale slug field, which the loop body never changes | A table holds "shoes", and a new product's name slugifies to "shoes": it is stored as "shoes" again. Re-saving any stored product never returns. | test the candidate against the other rows, so the slug gets the fewest "-1" suffixes that make it unique | high; not executed | Slugs.AsWrittenDuplicatesSlug | Slugs.SlugEntity.Save |
| apps/views.py:92 | the login check reads the raw `form.data["password"]`, while registration stores the hash of the stripped `cleaned_data["password"]` (apps/forms.py:13, 20-21) | A new phone registers with password " pw ", which stores the hash of "pw". Logging in again with " pw " fails `check_password`. | check the same stripped password that registration hashed | medium; not executed | Accounts.AsWrittenPaddedPasswordLocksOut | Accounts.CorrectedReloginAcceptsSamePassword |

=== FILE: accounts.dfy ===
/** The account views of apps/views.py: `LoginFormView.form_valid`, which
    logs in an existing user or registers a new one by phone number, and
    `ProfileFormView.form_valid`, which writes a pruned profile submission
    to the user's row. Sessions, messages and redirects are not modelled:
    the outcome says whom the view logs in. */
module Accounts {
  import opened Values
  import opened Users
  import opened Forms

  /** Whom the login view logs in, or the wrong-password error. */
  datatype LoginOutcome = LoggedIn(user: nat) | WrongPassword

  /** The column `login()` writes: Django's `update_last_login` receiver of
      the `user_logged_in` signal stamps it with the current time. */
  const LastLoginField := "last_login"

  /** `row` after `login()` at instant `now`: `last_login` is stamped. A
      re-hash of the password by `check_password` is not modelled. */
  function Stamped(row: UserRow, now: int): UserRow {
    row.(fields := row.fields + map[LastLoginField := Int(now)])
  }

  /** The login view's effect on the User rows, given the cleaned phone
      number, the hash the form made, and the password test it applies to
      the stored hash: a known phone logs that user in when the test passes
      and changes nothing otherwise; an unknown phone is registered with the
      hash and logged in. Logging in stamps `last_login`. The password
      re-hash that an accepted `check_password` may save is not modelled,
      so an accepted login keeps the stored hash. */
  ghost predicate LoggedInOrRegistered(before: seq<UserRow>, after: seq<UserRow>, phone: string, hashed: string,
                                       accepts: string -> bool, now: int, outcome: LoginOutcome)
  {
    match IndexOfPhone(before, phone)
    case Some(i) =>
      if accepts(before[i].password) then outcome == LoggedIn(i) && after == before[i := Stamped(before[i], now)]
      else outcome == WrongPassword && after == before
    case None =>
      outcome == LoggedIn(|before|) && after == before + [Stamped(UserRow(phone, "", hashed, ModelDefaults), now)]
  }

  /** The login view as written: the form strips both inputs, and registration
      stores the hash of the stripped password; the check against a stored
      user reads the raw submitted password (`form.data["password"]`). */
  ghost predicate LoginSubmitted(users: UserTable, before: seq<UserRow>, after: seq<UserRow>,
                                 phoneInput: string, passwordInput: string, now: int, outcome: LoginOutcome)
    reads users
  {
    LoggedInOrRegistered(before, after, CleanPhoneNumber(Strip(phoneInput)), users.makePassword(Some(Strip(passwordInput))),
                         stored => users.checkPassword(passwordInput, stored), now, outcome)
  }

  /** The login view as evidently intended: the check reads the same
      stripped password whose hash registration stores. */
  ghost predicate CorrectedLoginSubmitted(users: UserTable, before: seq<UserRow>, after: seq<UserRow>,
                                          phoneInput: string, passwordInput: string, now: int, outcome: LoginOutcome)
    reads users
  {
    LoggedInOrRegistered(before, after, CleanPhoneNumber(Strip(phoneInput)), users.makePassword(Some(Strip(passwordInput))),
                         stored => users.checkPassword(Strip(passwordInput), stored), now, outcome)
  }

  /** A password hasher whose check accepts a raw password against a hash
      exactly when the hash was made from that same password. */
  ghost predicate HashMatchesOnlyItsPassword(users: UserTable) {
    forall raw, p :: users.checkPassword(raw, users.makePassword(Some(p))) <==> raw == p
  }

  /** Log in the user with this cleaned phone number, or register one. */
  method LoginOrRegister(users: UserTable, phone: string, hashed: string, accepts: string -> bool, now: int)
    returns (outcome: LoginOutcome)
    requires users.Valid()
    modifies users
    ensures users.Valid()
    ensures LoggedInOrRegistered(old(users.rows), users.rows, phone, hashed, accepts, now, outcome)
  {
    var existing := IndexOfPhone(users.rows, phone);
    if existing.Some? {
      if accepts(users.rows[existing.value].password) {
        users.Update(existing.value, map[LastLoginField := Int(now)]);
        outcome := LoggedIn(existing.value);
      } else {
        outcome := WrongPassword;
      }
    } else {
      var created := users.Insert(UserRow(phone, "", hashed, ModelDefaults));
      users.Update(created.value, map[LastLoginField := Int(now)]);
      outcome := LoggedIn(created.value);
    }
  }

  /** `LoginFormView.form_valid` as written, at instant `now`. */
  method LoginFormValid(users: UserTable, phoneInput: string, passwordInput: string, now: int)
    returns (outcome: LoginOutcome)
    requires users.Valid()
    modifies users
    ensures users.Valid()
    ensures LoginSubmitted(users, old(users.rows), users.rows, phoneInput, passwordInput, now, outcome)
  {
    var phone := CleanPhoneNumber(Strip(phoneInput));
    var password := passwordInput;
    var hashed := users.makePassword(Some(Strip(passwordInput)));
    outcome := LoginOrRegister(users, phone, hashed, stored => users.checkPassword(password, stored), now);
  }

  /** `LoginFormView.form_valid` with the check reading the cleaned
      password, at instant `now`. */
  method CorrectedLoginFormValid(users: UserTable, phoneInput: string, passwordInput: string, now: int)
    returns (outcome: LoginOutcome)
    requires users.Valid()
    modifies users
    ensures users.Valid()
    ensures CorrectedLoginSubmitted(users, old(users.rows), users.rows, phoneInput, passwordInput, now, outcome)
  {
    var phone := CleanPhoneNumber(Strip(phoneInput));
    var password := Strip(passwordInput);
    var hashed := users.makePassword(Some(password));
    outcome := LoginOrRegister(users, phone, hashed, stored => users.checkPassword(password, stored), now);
  }

  /** The phone number the view looks up is the normalised raw input:
      stripping removes only whitespace, which holds no digits. */
  lemma LookupPhoneIsNormalisedInput(phoneInput: string)
    ensures CleanPhoneNumber(Strip(phoneInput)) == CleanPhoneNumber(phoneInput)
  {
    DigitsIgnoreSurroundingSpace(phoneInput);
  }

  /** After a registration, the new row is the first with its phone number,
      so the next login with that number finds it and tests its hash. */
  lemma RegisteredRowIsFound(before: seq<UserRow>, after: seq<UserRow>, phone: string, hashed: string,
                             accepts: string -> bool, now: int, outcome: LoginOutcome)
    requires IndexOfPhone(before, phone).None?
    requires LoggedInOrRegistered(before, after, phone, hashed, accepts, now, outcome)
    ensures outcome == LoggedIn(|before|)
    ensures IndexOfPhone(after, phone) == Some(|before|)
    ensures after[|before|].password == hashed
  {
    assert after == before + [Stamped(UserRow(phone, "", hashed, ModelDefaults), now)];
    assert after[|before|].phone == phone;
    assert forall i :: 0 <= i < |before| ==> after[i] == before[i];
  }

  /** " pw " is not left unchanged by stripping. */
  lemma PaddedPasswordIsStripped()
    ensures Strip(" pw ") != " pw "
  {
    StripFixedPoints(" pw ");
    assert IsSpace(" pw "[0]);
  }

  /** As written, a password with surrounding whitespace locks its owner
      out: registering with it stores the hash of its stripped form, and a
      second login typing the very same password is refused and changes
      nothing. " pw " is such a password (`PaddedPasswordIsStripped`). */
  lemma AsWrittenPaddedPasswordLocksOut(users: UserTable, before: seq<UserRow>, middle: seq<UserRow>, after: seq<UserRow>,
                                        phoneInput: string, password: string,
                                        now1: int, now2: int, first: LoginOutcome, second: LoginOutcome)
    requires HashMatchesOnlyItsPassword(users)
    requires Strip(password) != password
    requires IndexOfPhone(before, CleanPhoneNumber(Strip(phoneInput))).None?
    requires LoginSubmitted(users, before, middle, phoneInput, password, now1, first)
    requires LoginSubmitted(users, middle, after, phoneInput, password, now2, second)
    ensures first == LoggedIn(|before|)
    ensures second == WrongPassword && after == middle
  {
    var phone := CleanPhoneNumber(Strip(phoneInput));
    var hashed := users.makePassword(Some(Strip(password)));
    RegisteredRowIsFound(before, middle, phone, hashed, stored => users.checkPassword(password, stored), now1, first);
    assert !users.checkPassword(password, hashed);
  }

  /** Corrected, a returning user is let in exactly when what they type
      strips to the password they registered with; in particular typing the
      same password again always succeeds. */
  lemma CorrectedReloginAcceptsSamePassword(users: UserTable, before: seq<UserRow>, middle: seq<UserRow>, after: seq<UserRow>,
                                            phoneInput: string, registered: string, typed: string,
                                            now1: int, now2: int, first: LoginOutcome, second: LoginOutcome)
    requires HashMatchesOnlyItsPassword(users)
    requires IndexOfPhone(before, CleanPhoneNumber(Strip(phoneInput))).None?
    requires CorrectedLoginSubmitted(users, before, middle, phoneInput, registered, now1, first)
    requires CorrectedLoginSubmitted(users, middle, after, phoneInput, typed, now2, second)
    ensures first == LoggedIn(|before|)
    ensures second == LoggedIn(|before|) <==> Strip(typed) == Strip(registered)
    ensures typed == registered ==> second == LoggedIn(|before|)
  {
    var phone := CleanPhoneNumber(Strip(phoneInput));
    var hashed := users.makePassword(Some(Strip(registered)));
    RegisteredRowIsFound(before, middle, phone, hashed, stored => users.checkPassword(Strip(registered), stored), now1, first);
  }

  /** A user's fields after a profile submission: the pruned cleaned data
      overwrites the named fields. */
  function ProfileUpdated(fields: map<string, Value>, submission: map<string, Value>): map<string, Value> {
    fields + Pruned(BoundData(submission))
  }

  /** A profile submission changes exactly the profile fields whose
      cleaned value is truthy, and writes that cleaned (stripped) value; a
      blank, whitespace-only or missing field keeps the stored value, so no
      field can be cleared through this form, and keys that are not profile
      fields are ignored. */
  lemma ProfileUpdateChangesOnlySurvivingFields(fields: map<string, Value>, submission: map<string, Value>)
    ensures forall f :: f in ProfileFields && f in submission && Truthy(CleanedValue(f, submission[f])) ==>
              f in ProfileUpdated(fields, submission) && ProfileUpdated(fields, submission)[f] == CleanedValue(f, submission[f])
    ensures forall f :: !(f in ProfileFields && f in submission && Truthy(CleanedValue(f, submission[f]))) ==>
              && (f in ProfileUpdated(fields, submission) <==> f in fields)
              && (f in fields ==> ProfileUpdated(fields, submission)[f] == fields[f])
  {
    var pruned := Pruned(BoundData(submission));
    forall f | !(f in ProfileFields && f in submission && Truthy(CleanedValue(f, submission[f])))
      ensures f !in pruned
    {
      if f in ProfileFields {
        assert BoundData(submission)[f] == if f in submission then CleanedValue(f, submission[f]) else Null;
      }
    }
  }

  /** The profile view for user `pk` on a submission: bind the form, run
      its `clean`, then update the user's row with what survived. */
  method ProfileFormValid(users: UserTable, pk: nat, submission: map<string, Value>)
    requires users.Valid()
    modifies users
    ensures users.Valid()
    ensures pk < |old(users.rows)| ==>
              users.rows == old(users.rows)[pk := old(users.rows)[pk].(fields := ProfileUpdated(old(users.rows)[pk].fields, submission))]
    ensures pk >= |old(users.rows)| ==> users.rows == old(users.rows)
  {
    var form := new ProfileForm(submission);
    var data := form.Clean();
    users.Update(pk, data);
  }
}

=== FILE: catalog.dfy ===
/** The product lists of `MarketListView` and `CategoryListView`
    (apps/views.py): the slug "all" keeps every product, any other slug
    keeps the products whose category has that slug. The market list is
    ordered newest first; the category list keeps table order. */
module Catalog {
  import opened Shop

  /** `category__slug=slug`: the product's category (joined through its
      key) has this slug. */
  predicate InCategory(p: Product, categories: map<nat, Category>, slug: string) {
    p.category in categories && categories[p.category].slug == slug
  }

  /** `filter(category__slug=slug)`, keeping the order of `products`. */
  function WithCategorySlug(products: seq<Product>, categories: map<nat, Category>, slug: string): (r: seq<Product>)
    ensures forall p :: multiset(r)[p] == if InCategory(p, categories, slug) then multiset(products)[p] else 0
  {
    if products == [] then []
    else
      assert products == [products[0]] + products[1..];
      (if InCategory(products[0], categories, slug) then [products[0]] else [])
        + WithCategorySlug(products[1..], categories, slug)
  }

  /** The views' `if slug != "all"` branch. */
  function FilterBySlug(products: seq<Product>, categories: map<nat, Category>, slug: string): seq<Product> {
    if slug == "all" then products else WithCategorySlug(products, categories, slug)
  }

  /** `order_by('-created_at')` holds: no product is newer than one before it. */
  ghost predicate NewestFirst(s: seq<Product>) {
    forall i, j :: 0 <= i < j < |s| ==> s[i].createdAt >= s[j].createdAt
  }

  /** No product of `s` is newer than `t`. */
  ghost predicate NoneNewerThan(s: seq<Product>, t: int) {
    forall x :: x in s ==> x.createdAt <= t
  }

  lemma PrependNewestFirst(x: Product, s: seq<Product>)
    requires NewestFirst(s) && NoneNewerThan(s, x.createdAt)
    ensures NewestFirst([x] + s)
  {
    var r := [x] + s;
    forall i, j | 0 <= i < j < |r| ensures r[i].createdAt >= r[j].createdAt {
      if i == 0 {
        assert r[j] == s[j - 1];
      } else {
        assert r[i] == s[i - 1] && r[j] == s[j - 1];
      }
    }
  }

  /** A product no older than the head of a newest-first list may lead it. */
  lemma LeadNewestFirst(p: Product, s: seq<Product>)
    requires NewestFirst(s)
    requires s == [] || p.createdAt >= s[0].createdAt
    ensures NewestFirst([p] + s)
  {
    forall x | x in s ensures x.createdAt <= p.createdAt {
      var k :| 0 <= k < |s| && s[k] == x;
      assert k == 0 || s[0].createdAt >= s[k].createdAt;
    }
    PrependNewestFirst(p, s);
  }

  /** Inserting an older product into the tail keeps every product of the
      result no newer than the head. */
  lemma TailStaysOlder(s: seq<Product>, p: Product, rest: seq<Product>)
    requires NewestFirst(s) && s != [] && p.createdAt < s[0].createdAt
    requires multiset(rest) == multiset(s[1..]) + multiset{p}
    ensures NoneNewerThan(rest, s[0].createdAt)
  {
    forall x | x in rest ensures x.createdAt <= s[0].createdAt {
      assert x in multiset(rest);
      if x != p {
        assert x in multiset(s[1..]);
        var k :| 1 <= k < |s| && s[k] == x;
      }
    }
  }

  function InsertNewestFirst(p: Product, s: seq<Product>): (r: seq<Product>)
    requires NewestFirst(s)
    ensures NewestFirst(r)
    ensures multiset(r) == multiset(s) + multiset{p}
  {
    if s == [] || p.createdAt >= s[0].createdAt then
      LeadNewestFirst(p, s);
      [p] + s
    else
      var rest := InsertNewestFirst(p, s[1..]);
      assert s == [s[0]] + s[1..];
      TailStaysOlder(s, p, rest);
      PrependNewestFirst(s[0], rest);
      [s[0]] + rest
  }

  /** The database's `order_by('-created_at')`; products created at the same
      instant come in an order the database leaves open, here the order
      insertion sorting gives. */
  function OrderNewestFirst(products: seq<Product>): (r: seq<Product>)
    ensures NewestFirst(r)
    ensures multiset(r) == multiset(products)
  {
    if products == [] then []
    else
      assert products == [products[0]] + products[1..];
      InsertNewestFirst(products[0], OrderNewestFirst(products[1..]))
  }

  /** `MarketListView`: products newest first, filtered by slug. */
  function MarketProducts(products: seq<Product>, categories: map<nat, Category>, slug: string): seq<Product> {
    FilterBySlug(OrderNewestFirst(products), categories, slug)
  }

  /** `CategoryListView`: products in table order, filtered by slug. */
  function CategoryProducts(products: seq<Product>, categories: map<nat, Category>, slug: string): seq<Product> {
    FilterBySlug(products, categories, slug)
  }

  /** Filtering a newest-first list keeps it newest first. */
  lemma {:induction false} FilterKeepsNewestFirst(s: seq<Product>, categories: map<nat, Category>, slug: string)
    requires NewestFirst(s)
    ensures NewestFirst(WithCategorySlug(s, categories, slug))
  {
    if s != [] {
      assert NewestFirst(s[1..]) by {
        forall i, j | 0 <= i < j < |s| - 1 ensures s[1..][i].createdAt >= s[1..][j].createdAt {
          assert s[1..][i] == s[i + 1] && s[1..][j] == s[j + 1];
        }
      }
      FilterKeepsNewestFirst(s[1..], categories, slug);
      var rest := WithCategorySlug(s[1..], categories, slug);
      if InCategory(s[0], categories, slug) {
        assert NoneNewerThan(rest, s[0].createdAt) by {
          forall x | x in rest ensures x.createdAt <= s[0].createdAt {
            assert x in multiset(rest);
            var k :| 1 <= k < |s| && s[k] == x;
          }
        }
        PrependNewestFirst(s[0], rest);
      } else {
        assert WithCategorySlug(s, categories, slug) == rest;
      }
    }
  }

  /** The market list holds every product for "all" and, for any other
      slug, exactly the products of that category, each as often as stored;
      either way it is newest first. */
  lemma MarketProductsContents(products: seq<Product>, categories: map<nat, Category>, slug: string)
    ensures slug == "all" ==> multiset(MarketProducts(products, categories, slug)) == multiset(products)
    ensures slug != "all" ==> forall p :: multiset(MarketProducts(products, categories, slug))[p]
                                          == if InCategory(p, categories, slug) then multiset(products)[p] else 0
    ensures NewestFirst(MarketProducts(products, categories, slug))
  {
    FilterKeepsNewestFirst(OrderNewestFirst(products), categories, slug);
  }

  /** The category list is the product table itself for "all" and, for any
      other slug, exactly the products of that category. */
  lemma CategoryProductsContents(products: seq<Product>, categories: map<nat, Category>, slug: string)
    ensures slug == "all" ==> CategoryProducts(products, categories, slug) == products
    ensures slug != "all" ==> forall p :: p in CategoryProducts(products, categories, slug)
                                          <==> p in products && InCategory(p, categories, slug)
  {
    if slug != "all" {
      var r := CategoryProducts(products, categories, slug);
      forall p ensures p in r <==> p in products && InCategory(p, categories, slug) {
        assert p in r <==> p in multiset(r);
        assert p in products <==> p in multiset(products);
      }
    }
  }
}

=== FILE: forms.dfy ===
/** The normalisers of apps/forms.py: `clean_phone_number` (LoginForm and
    OrderForm) and `ProfileModelForm.clean`. Python's `\D` is Unicode-aware;
    this model assumes ASCII, so a digit is one of '0'..'9'. */
module Forms {
  import opened Values

  predicate IsDigit(c: char) {
    '0' <= c <= '9'
  }

  /** The digits of `s`, in order: what `re.sub('\D', "", s)` leaves. */
  function Digits(s: string): (d: string)
    ensures |d| <= |s|
    ensures forall i :: 0 <= i < |d| ==> IsDigit(d[i])
  {
    if s == [] then [] else (if IsDigit(s[0]) then [s[0]] else []) + Digits(s[1..])
  }

  /** `clean_phone_number`: a plus sign followed by the input's digits. */
  function CleanPhoneNumber(phone: string): string {
    "+" + Digits(phone)
  }

  /** Keeping digits distributes over concatenation: the digits of a
      string are those of its parts, in the same order. */
  lemma {:induction false} DigitsOfConcat(a: string, b: string)
    ensures Digits(a + b) == Digits(a) + Digits(b)
  {
    if a == [] {
      assert a + b == b;
    } else {
      assert (a + b)[1..] == a[1..] + b;
      DigitsOfConcat(a[1..], b);
    }
  }

  /** A string of digits only is kept whole; a string without digits
      vanishes. */
  lemma {:induction false} DigitsOfDigitsOnly(s: string)
    ensures (forall i :: 0 <= i < |s| ==> IsDigit(s[i])) ==> Digits(s) == s
    ensures (forall i :: 0 <= i < |s| ==> !IsDigit(s[i])) ==> Digits(s) == []
  {
    if s != [] {
      DigitsOfDigitsOnly(s[1..]);
    }
  }

  /** Every digit occurrence of the input survives and no other character
      does. */
  lemma {:induction false} DigitsKeepsEveryDigit(s: string, c: char)
    ensures multiset(Digits(s))[c] == if IsDigit(c) then multiset(s)[c] else 0
  {
    if s != [] {
      DigitsKeepsEveryDigit(s[1..], c);
      assert s == [s[0]] + s[1..];
    }
  }

  /** The normalised number is "+" followed by exactly the input's digits:
      the plus sign is its only non-digit, its length is one more than the
      number of digits, and every digit of the input appears as often as in
      the input. Normalisation never rejects: no digits gives "+". */
  lemma CleanPhoneNumberShape(phone: string)
    ensures |CleanPhoneNumber(phone)| == 1 + |Digits(phone)|
    ensures CleanPhoneNumber(phone)[0] == '+'
    ensures forall i :: 1 <= i < |CleanPhoneNumber(phone)| ==> IsDigit(CleanPhoneNumber(phone)[i])
    ensures forall c :: IsDigit(c) ==> multiset(CleanPhoneNumber(phone)[1..])[c] == multiset(phone)[c]
    ensures (forall i :: 0 <= i < |phone| ==> !IsDigit(phone[i])) ==> CleanPhoneNumber(phone) == "+"
  {
    DigitsOfDigitsOnly(phone);
    var r := CleanPhoneNumber(phone);
    assert r[1..] == Digits(phone);
    forall c | IsDigit(c)
      ensures multiset(r[1..])[c] == multiset(phone)[c]
    {
      DigitsKeepsEveryDigit(phone, c);
    }
  }

  /** Normalisation is idempotent. */
  lemma CleanPhoneNumberIdempotent(phone: string)
    ensures CleanPhoneNumber(CleanPhoneNumber(phone)) == CleanPhoneNumber(phone)
  {
    DigitsOfConcat("+", Digits(phone));
    DigitsOfDigitsOnly(Digits(phone));
  }

  /** The fixed points of normalisation are exactly the strings "+"
      followed by digits. */
  lemma CleanPhoneNumberFixedPoints(phone: string)
    ensures CleanPhoneNumber(phone) == phone
            <==> |phone| >= 1 && phone[0] == '+' && forall i :: 1 <= i < |phone| ==> IsDigit(phone[i])
  {
    if |phone| >= 1 && phone[0] == '+' && forall i :: 1 <= i < |phone| ==> IsDigit(phone[i]) {
      assert phone == "+" + phone[1..];
      DigitsOfConcat("+", phone[1..]);
      DigitsOfDigitsOnly(phone[1..]);
    }
  }

  /** Python's `str.isspace`: the characters `str.strip()` removes. */
  predicate IsSpace(c: char) {
    || c == ' ' || '\t' <= c <= '\r' || '\U{1c}' <= c <= '\U{1f}'
    || c == '\U{85}' || c == '\U{a0}' || c == '\U{1680}' || '\U{2000}' <= c <= '\U{200a}'
    || c == '\U{2028}' || c == '\U{2029}' || c == '\U{202f}' || c == '\U{205f}' || c == '\U{3000}'
  }

  /** `s` without its leading whitespace: a suffix of `s`. */
  function StripLeading(s: string): (r: string)
    ensures |r| <= |s| && r == s[|s| - |r|..]
    ensures forall i :: 0 <= i < |s| - |r| ==> IsSpace(s[i])
    ensures r == [] || !IsSpace(r[0])
  {
    if s != [] && IsSpace(s[0]) then
      var r := StripLeading(s[1..]);
      assert r == s[|s| - |r|..];
      assert forall i :: 1 <= i < |s| - |r| ==> s[i] == s[1..][i - 1];
      r
    else s
  }

  /** `s` without its trailing whitespace: a prefix of `s`. */
  function StripTrailing(s: string): (r: string)
    ensures |r| <= |s| && r == s[..|r|]
    ensures forall i :: |r| <= i < |s| ==> IsSpace(s[i])
    ensures r == [] || !IsSpace(r[|r| - 1])
  {
    if s != [] && IsSpace(s[|s| - 1]) then
      var r := StripTrailing(s[..|s| - 1]);
      assert r == s[..|r|];
      assert forall i :: |r| <= i < |s| - 1 ==> s[i] == s[..|s| - 1][i];
      r
    else s
  }

  /** `str.strip()`, which every form `CharField` (strip=True by default)
      applies to its input before any `clean_<field>` runs. */
  function Strip(s: string): string {
    StripTrailing(StripLeading(s))
  }

  /** Neither end of a stripped value is whitespace. */
  lemma StripEnds(s: string)
    ensures Strip(s) == [] || (!IsSpace(Strip(s)[0]) && !IsSpace(Strip(s)[|Strip(s)| - 1]))
  {
    var t := StripLeading(s);
    var r := StripTrailing(t);
    if r != [] {
      assert r[0] == t[0];
    }
  }

  /** Stripping keeps a contiguous middle of the input, with only whitespace
      before and after it. */
  lemma StripKeepsTheMiddle(s: string)
    ensures var k := |s| - |StripLeading(s)|;
            && k + |Strip(s)| <= |s|
            && Strip(s) == s[k..k + |Strip(s)|]
            && (forall i :: 0 <= i < k ==> IsSpace(s[i]))
            && (forall i :: k + |Strip(s)| <= i < |s| ==> IsSpace(s[i]))
  {
    var t := StripLeading(s);
    var r := StripTrailing(t);
    var k := |s| - |t|;
    assert t == s[k..];
    assert r == t[..|r|];
    assert r == s[k..k + |r|];
    forall i | k + |r| <= i < |s| ensures IsSpace(s[i]) {
      assert s[i] == t[i - k];
    }
  }

  /** A string is left unchanged by stripping exactly when neither end is
      whitespace. */
  lemma StripFixedPoints(s: string)
    ensures Strip(s) == s <==> s == [] || (!IsSpace(s[0]) && !IsSpace(s[|s| - 1]))
  {
    if s != [] && !IsSpace(s[0]) && !IsSpace(s[|s| - 1]) {
      assert StripLeading(s) == s;
      assert StripTrailing(s) == s;
    }
    StripEnds(s);
  }

  /** Stripping is idempotent. */
  lemma StripIdempotent(s: string)
    ensures Strip(Strip(s)) == Strip(s)
  {
    StripEnds(s);
    StripFixedPoints(Strip(s));
  }

  /** Leading whitespace holds no digits. */
  lemma {:induction false} DigitsIgnoreLeadingSpace(s: string)
    ensures Digits(StripLeading(s)) == Digits(s)
  {
    if s != [] && IsSpace(s[0]) {
      DigitsIgnoreLeadingSpace(s[1..]);
    }
  }

  /** Trailing whitespace holds no digits. */
  lemma {:induction false} DigitsIgnoreTrailingSpace(s: string)
    ensures Digits(StripTrailing(s)) == Digits(s)
  {
    if s != [] && IsSpace(s[|s| - 1]) {
      var init := s[..|s| - 1];
      DigitsIgnoreTrailingSpace(init);
      assert s == init + [s[|s| - 1]];
      DigitsOfConcat(init, [s[|s| - 1]]);
    }
  }

  /** Whitespace is never a digit, so normalising the stripped phone number
      gives what normalising the raw input would. */
  lemma DigitsIgnoreSurroundingSpace(s: string)
    ensures Digits(Strip(s)) == Digits(s)
  {
    DigitsIgnoreLeadingSpace(s);
    DigitsIgnoreTrailingSpace(StripLeading(s));
  }

  /** The fields of `ProfileModelForm`; `__init__` makes every one of them
      optional. */
  const ProfileFields: set<string> :=
    {"first_name", "last_name", "district", "address", "telegram_id", "description"}

  /** The form's `CharField`s: every profile field but the district, which
      is a model choice. */
  const TextFields: set<string> := ProfileFields - {"district"}

  /** What a field's own cleaning makes of a submitted value: a text field
      strips a string (`CharField` strips by default); the district value is
      taken as already resolved to its instance. */
  function CleanedValue(f: string, v: Value): Value {
    if f in TextFields && v.Str? then Str(Strip(v.s)) else v
  }

  /** The form's `cleaned_data` before `clean`: every form field, cleaned
      by the field, with a field the submission left out cleaned to an
      empty value. Keys that are not form fields are ignored. Every field is
      optional, so every submission gets this far. */
  function BoundData(submission: map<string, Value>): (data: map<string, Value>)
    ensures data.Keys == ProfileFields
  {
    map f | f in ProfileFields :: if f in submission then CleanedValue(f, submission[f]) else Null
  }

  /** Every text value of the cleaned data is already stripped, and a text
      field submitted as whitespace only is cleaned to the empty string. */
  lemma BoundTextIsStripped(submission: map<string, Value>)
    ensures forall f :: f in TextFields && BoundData(submission)[f].Str? ==>
              Strip(BoundData(submission)[f].s) == BoundData(submission)[f].s
    ensures forall f :: f in TextFields && f in submission && submission[f].Str? && Strip(submission[f].s) == "" ==>
              !Truthy(BoundData(submission)[f])
  {
    forall f | f in TextFields && BoundData(submission)[f].Str?
      ensures Strip(BoundData(submission)[f].s) == BoundData(submission)[f].s
    {
      if f in submission && submission[f].Str? {
        StripIdempotent(submission[f].s);
      }
    }
  }

  /** The entries of `data` whose value is truthy. */
  function Pruned(data: map<string, Value>): map<string, Value> {
    map k | k in data && Truthy(data[k]) :: data[k]
  }

  /** Pruning removes exactly the falsy entries and keeps every other entry
      unchanged; its keys are a subset of the input's. */
  lemma PrunedEntries(data: map<string, Value>)
    ensures Pruned(data).Keys <= data.Keys
    ensures forall k :: k in data ==> (k in Pruned(data) <==> Truthy(data[k]))
    ensures forall k :: k in Pruned(data) ==> Pruned(data)[k] == data[k]
  {
  }

  /** Pruning is idempotent. */
  lemma PrunedIdempotent(data: map<string, Value>)
    ensures Pruned(Pruned(data)) == Pruned(data)
  {
  }

  /** An empty submission is valid and prunes to nothing. */
  lemma EmptySubmissionPrunesToNothing()
    ensures Pruned(BoundData(map[])) == map[]
  {
    var bound := BoundData(map[]);
    assert forall k :: k in bound ==> bound[k] == Null;
  }

  /** A bound `ProfileModelForm`. */
  class ProfileForm {
    var cleanedData: map<string, Value>

    constructor (submission: map<string, Value>)
      ensures cleanedData == BoundData(submission)
    {
      cleanedData := BoundData(submission);
    }

    /** `clean`: walk a copy of `cleaned_data` and delete, from the
        original, every key whose value is falsy. Because the walk is over
        the copy, no entry is skipped: the result is the pruned map. */
    method Clean() returns (data: map<string, Value>)
      modifies this
      ensures cleanedData == Pruned(old(cleanedData))
      ensures data == cleanedData
    {
      var copy := cleanedData;
      var pending := copy.Keys;
      while pending != {}
        invariant pending <= copy.Keys
        invariant cleanedData.Keys == set k | k in copy && (k in pending || Truthy(copy[k]))
        invariant forall k :: k in cleanedData ==> cleanedData[k] == copy[k]
        decreases pending
      {
        var k :| k in pending;
        if !Truthy(copy[k]) {
          cleanedData := cleanedData - {k};
        }
        pending := pending - {k};
      }
      data := cleanedData;
    }
  }
}

=== FILE: shop.dfy ===
/** The catalog, referral and wishlist records of apps/models.py (Category,
    Product, Thread, Order, WishList) and the order status enumeration.
    Prices, images and descriptions play no part in the modelled rules and
    are not recorded; instants are integer microseconds. */
module Shop {
  import opened Values

  /** `Order.StatusType`: the value stored in the `status` column. */
  datatype Status = New | ReadyToStart | BeingDelivered | Delivered | PhoneCanceled | Canceled | Archive {
    function Value(): string {
      match this
      case New => "new"
      case ReadyToStart => "ready_to_start"
      case BeingDelivered => "being_delivered"
      case Delivered => "delivered"
      case PhoneCanceled => "phone_canceled"
      case Canceled => "canceled"
      case Archive => "archive"
    }
  }

  /** A new order's status unless the caller gives one. */
  const DefaultStatus: Status := New

  /** Distinct statuses are stored as distinct values, so a stored value
      names exactly one status; the default is the one stored as "new". */
  lemma StatusValuesDistinct(a: Status, b: Status)
    ensures a.Value() == b.Value() ==> a == b
    ensures DefaultStatus.Value() == "new"
  {
  }

  datatype Category = Category(name: string, slug: string)

  /** A product; `category` is the primary key of its Category. */
  datatype Product = Product(pk: nat, name: string, slug: string, category: nat, createdAt: int)

  /** A referral thread of `user` for `product`. */
  datatype Thread = Thread(pk: nat, title: string, user: nat, product: nat, visitCount: int)

  /** An order; the user, product and thread keys are nulled when their
      rows are deleted. */
  datatype Order = Order(
    user: Option<nat>,
    product: Option<nat>,
    thread: Option<nat>,
    status: Status,
    orderedAt: int)

  /** A WishList row: `user` has put `product` on their wishlist. */
  datatype WishRow = WishRow(product: nat, user: nat)

  /** The rows left after deleting every row equal to `row`, in their
      original order. */
  function Without(rows: seq<WishRow>, row: WishRow): (r: seq<WishRow>)
    ensures row !in r
    ensures forall x :: x != row ==> multiset(r)[x] == multiset(rows)[x]
    ensures |r| == |rows| - multiset(rows)[row]
  {
    if rows == [] then []
    else
      assert rows == [rows[0]] + rows[1..];
      if rows[0] == row then Without(rows[1..], row)
      else [rows[0]] + Without(rows[1..], row)
  }

  /** The WishList table. The source declares no uniqueness constraint, so
      a (user, product) pair may be stored more than once. */
  class WishListTable {
    var rows: seq<WishRow>

    constructor ()
      ensures rows == []
    {
      rows := [];
    }

    /** `wishlists.filter(product_id=product).exists()` for `user`. */
    predicate Contains(user: nat, product: nat)
      reads this
    {
      WishRow(product, user) in rows
    }

    /** `wishlists.filter(product_id=product).delete()` for `user`. */
    method DeleteMatching(user: nat, product: nat)
      modifies this
      ensures rows == Without(old(rows), WishRow(product, user))
    {
      rows := Without(rows, WishRow(product, user));
    }

    /** `wishlists.create(product_id=product, user=user)`. */
    method Create(user: nat, product: nat)
      modifies this
      ensures rows == old(rows) + [WishRow(product, user)]
    {
      rows := rows + [WishRow(product, user)];
    }
  }
}

=== FILE: slugs.dfy ===
/** `BaseSlug.save` (apps/models.py): every save of a Category or a Product
    derives the slug from the name and runs a uniqueness loop that appends
    "-1" before the row is persisted.

    The loop as written tests the entity's stale `slug` field instead of the
    candidate it builds, so it either runs zero times (and stores the bare
    candidate, even when another row already holds it) or never ends.
    `SlugEntity.SaveAsWritten` models that loop; `SlugEntity.Save` is the
    corrected loop that tests the candidate. `slugify` is Django's text
    normaliser, a foreign function supplied with the table. */
module Slugs {
  import opened Values

  /** The keyword arguments of `Model.save`. */
  datatype SaveOptions = SaveOptions(
    forceInsert: bool,
    forceUpdate: bool,
    using: Option<string>,
    updateFields: Option<seq<string>>)

  /** What `BaseSlug.save` passes on to the parent `save`, whatever its own
      caller gave it. */
  const ForwardedSaveOptions := SaveOptions(false, false, None, None)

  /** A stored row of a sluggable table. */
  datatype SlugRow = SlugRow(name: string, slug: string)

  /** How a call of the as-written save ends: it never returns, or it
      persisted the entity after calling the parent `save` with `forwarded`. */
  datatype SaveOutcome = NeverReturns | Saved(forwarded: SaveOptions)

  /** The slugs held by the rows of a table. */
  function SlugsOf(rows: map<nat, SlugRow>): set<string> {
    set pk | pk in rows :: rows[pk].slug
  }

  /** The slugs held by every row except the one whose primary key is `pk`. */
  function SlugsOfOthers(rows: map<nat, SlugRow>, pk: Option<nat>): set<string> {
    set p | p in rows && Some(p) != pk :: rows[p].slug
  }

  /** No two rows of the table hold the same slug. */
  ghost predicate UniqueSlugs(rows: map<nat, SlugRow>) {
    forall p, q :: p in rows && q in rows && p != q ==> rows[p].slug != rows[q].slug
  }

  /** `k` copies of the disambiguation suffix "-1". */
  function Suffix(k: nat): (r: string)
    ensures |r| == 2 * k
  {
    if k == 0 then "" else Suffix(k - 1) + "-1"
  }

  /** The candidate after the loop body has run `k` times. */
  function Suffixed(base: string, k: nat): string {
    base + Suffix(k)
  }

  lemma SuffixedStep(base: string, k: nat)
    ensures Suffixed(base, k + 1) == Suffixed(base, k) + "-1"
  {
  }

  /** The taken slugs of length `n` or more: a bound on how many more
      candidates the corrected loop can find taken. */
  function TakenAtLeast(taken: set<string>, n: nat): set<string> {
    set t | t in taken && |t| >= n
  }

  /** Each taken candidate is longer than the previous one, so the taken
      slugs at least as long as the candidate run out. */
  lemma LongerCandidatesShrink(taken: set<string>, s: string)
    requires s in taken
    ensures |TakenAtLeast(taken, |s| + 2)| < |TakenAtLeast(taken, |s|)|
  {
    var longer := TakenAtLeast(taken, |s| + 2);
    var atLeast := TakenAtLeast(taken, |s|);
    assert longer <= atLeast - {s};
    assert s in atLeast;
    assert |atLeast - {s}| == |atLeast| - 1;
    SubsetCardinality(longer, atLeast - {s});
  }

  lemma {:induction false} SubsetCardinality(a: set<string>, b: set<string>)
    requires a <= b
    ensures |a| <= |b|
  {
    if a != {} {
      var x :| x in a;
      SubsetCardinality(a - {x}, b - {x});
    }
  }

  /** The number of suffixes the corrected loop appends, searching from `k`
      on: the first `n >= k` whose candidate is free. */
  function FreeSuffixFrom(taken: set<string>, base: string, k: nat): (n: nat)
    requires forall j :: 0 <= j < k ==> Suffixed(base, j) in taken
    ensures k <= n
    ensures Suffixed(base, n) !in taken
    ensures forall j :: 0 <= j < n ==> Suffixed(base, j) in taken
    decreases |TakenAtLeast(taken, |Suffixed(base, k)|)|
  {
    if Suffixed(base, k) !in taken then k
    else
      LongerCandidatesShrink(taken, Suffixed(base, k));
      FreeSuffixFrom(taken, base, k + 1)
  }

  /** The least number of "-1" suffixes that makes `base` free in `taken`. */
  function LeastFreeSuffix(taken: set<string>, base: string): nat {
    FreeSuffixFrom(taken, base, 0)
  }

  /** The slug the corrected loop settles on. */
  function FreeSlug(taken: set<string>, base: string): string {
    Suffixed(base, LeastFreeSuffix(taken, base))
  }

  /** The free slug is `base` followed by the least number of suffixes that
      makes it absent from `taken`: every shorter candidate is taken. */
  lemma FreeSlugIsLeastFree(taken: set<string>, base: string)
    ensures FreeSlug(taken, base) !in taken
    ensures exists k: nat :: FreeSlug(taken, base) == Suffixed(base, k)
                        && forall j :: 0 <= j < k ==> Suffixed(base, j) in taken
  {
    assert FreeSlug(taken, base) == Suffixed(base, LeastFreeSuffix(taken, base));
  }

  /** A suffix count whose candidate is free while all smaller counts are
      taken is the least free suffix count. */
  lemma LeastFreeSuffixIsUnique(taken: set<string>, base: string, k: nat)
    requires Suffixed(base, k) !in taken
    requires forall j :: 0 <= j < k ==> Suffixed(base, j) in taken
    ensures LeastFreeSuffix(taken, base) == k
  {
  }

  /** The slug the as-written loop ends with: the bare candidate when no row
      holds the entity's stale slug, otherwise none, because the loop never
      stops. */
  function AsWrittenSlug(taken: set<string>, stale: string, candidate: string): Option<string> {
    if stale in taken then None else Some(candidate)
  }

  /** As written, re-saving a stored entity never returns: its own row
      holds the stale slug the loop tests. */
  lemma AsWrittenResaveNeverReturns(rows: map<nat, SlugRow>, pk: nat, candidate: string)
    requires pk in rows
    ensures AsWrittenSlug(SlugsOf(rows), rows[pk].slug, candidate) == None
  {
  }

  /** As written, a new entity (stale slug "") whose candidate is already
      stored gets that same slug, unsuffixed, so two rows share it. */
  lemma AsWrittenDuplicatesSlug(rows: map<nat, SlugRow>, newPk: nat, name: string, candidate: string)
    requires "" !in SlugsOf(rows)
    requires candidate in SlugsOf(rows)
    requires newPk !in rows
    ensures AsWrittenSlug(SlugsOf(rows), "", candidate) == Some(candidate)
    ensures !UniqueSlugs(rows[newPk := SlugRow(name, candidate)])
  {
    var p :| p in rows && rows[p].slug == candidate;
    var after := rows[newPk := SlugRow(name, candidate)];
    assert p in after && newPk in after && p != newPk && after[p].slug == after[newPk].slug;
  }

  /** The concrete case: with "shoes" stored, a second product whose name
      slugifies to "shoes" is stored as "shoes" too. */
  lemma AsWrittenDuplicateExample()
    ensures AsWrittenSlug(SlugsOf(map[0 := SlugRow("Shoes", "shoes")]), "", "shoes") == Some("shoes")
    ensures !UniqueSlugs(map[0 := SlugRow("Shoes", "shoes"), 1 := SlugRow("shoes", "shoes")])
  {
    var rows := map[0 := SlugRow("Shoes", "shoes")];
    assert rows[0].slug == "shoes";
    assert SlugsOf(rows) == {"shoes"};
    AsWrittenDuplicatesSlug(rows, 1, "shoes", "shoes");
    assert rows[1 := SlugRow("shoes", "shoes")] == map[0 := SlugRow("Shoes", "shoes"), 1 := SlugRow("shoes", "shoes")];
  }

  /** As written, once some row holds the empty slug, saving any new entity
      never returns. */
  lemma AsWrittenEmptySlugBlocksInserts(rows: map<nat, SlugRow>, candidate: string)
    requires exists p :: p in rows && rows[p].slug == ""
    ensures AsWrittenSlug(SlugsOf(rows), "", candidate) == None
  {
  }

  /** One concrete table of a sluggable model (Category or Product). */
  class SlugTable {
    var rows: map<nat, SlugRow>
    var nextPk: nat
    const slugify: string -> string

    /** Every stored key is below the next auto-increment key. */
    ghost predicate Valid()
      reads this
    {
      forall pk :: pk in rows ==> pk < nextPk
    }

    constructor (slugify: string -> string)
      ensures Valid()
      ensures rows == map[] && nextPk == 0 && this.slugify == slugify
    {
      rows := map[];
      nextPk := 0;
      this.slugify := slugify;
    }

    /** The parent `Model.save` called with the forwarded options: update
        (or insert) the row keyed `pk`, or insert under the next
        auto-increment key when the entity has none yet. */
    method Persist(pk: Option<nat>, row: SlugRow) returns (stored: nat)
      requires Valid()
      modifies this
      ensures Valid()
      ensures pk.Some? ==> stored == pk.value
      ensures pk.None? ==> stored == old(nextPk) && stored !in old(rows)
      ensures rows == old(rows)[stored := row]
    {
      if pk.Some? {
        stored := pk.value;
        if nextPk <= stored {
          nextPk := stored + 1;
        }
      } else {
        stored := nextPk;
        nextPk := nextPk + 1;
      }
      rows := rows[stored := row];
    }
  }

  /** An in-memory Category or Product: its name, its slug field and its
      primary key (none before the first save). */
  class SlugEntity {
    var name: string
    var slug: string
    var pk: Option<nat>

    /** A new instance: a SlugField defaults to the empty string. */
    constructor (name: string)
      ensures this.name == name && slug == "" && pk == None
    {
      this.name := name;
      slug := "";
      pk := None;
    }

    /** `BaseSlug.save` as written. The loop tests `self.slug`, which its
        body never changes, so it runs zero times or forever. `fuel` bounds
        the iterations this model is willing to run: the outcome is
        `NeverReturns` for EVERY fuel exactly when the stale slug is stored. */
    method SaveAsWritten(table: SlugTable, options: SaveOptions, fuel: nat) returns (outcome: SaveOutcome)
      requires table.Valid()
      modifies this, table
      ensures table.Valid()
      ensures outcome.NeverReturns?
              <==> AsWrittenSlug(old(SlugsOf(table.rows)), old(slug), table.slugify(name)).None?
      ensures outcome.NeverReturns? ==> unchanged(this) && unchanged(table)
      ensures outcome.Saved? ==>
                && outcome.forwarded == ForwardedSaveOptions
                && Some(slug) == AsWrittenSlug(old(SlugsOf(table.rows)), old(slug), table.slugify(name))
                && name == old(name)
                && pk.Some? && (old(pk).Some? ==> pk == old(pk))
                && (old(pk).None? ==> pk.value !in old(table.rows))
                && table.rows == old(table.rows)[pk.value := SlugRow(name, slug)]
    {
      var candidate := table.slugify(name);
      var iterations := 0;
      while slug in SlugsOf(table.rows)
        invariant unchanged(this) && unchanged(table)
        invariant iterations <= fuel
        invariant iterations > 0 ==> slug in SlugsOf(table.rows)
        invariant candidate == Suffixed(table.slugify(name), iterations)
        decreases fuel - iterations
      {
        if iterations == fuel {
          return NeverReturns;
        }
        candidate := candidate + "-1";
        iterations := iterations + 1;
      }
      slug := candidate;
      var stored := table.Persist(pk, SlugRow(name, slug));
      pk := Some(stored);
      outcome := Saved(ForwardedSaveOptions);
    }

    /** The corrected save: the loop tests the candidate against the slugs of
        the other rows, so it ends, and the stored slug is the name's slug
        followed by the least number of "-1" suffixes that makes it free.
        A table whose slugs are unique stays so. */
    method Save(table: SlugTable, options: SaveOptions) returns (forwarded: SaveOptions)
      requires table.Valid()
      modifies this, table
      ensures table.Valid()
      ensures forwarded == ForwardedSaveOptions
      ensures slug == FreeSlug(old(SlugsOfOthers(table.rows, pk)), table.slugify(name))
      ensures name == old(name)
      ensures pk.Some? && (old(pk).Some? ==> pk == old(pk))
      ensures old(pk).None? ==> pk.value !in old(table.rows)
      ensures table.rows == old(table.rows)[pk.value := SlugRow(name, slug)]
      ensures UniqueSlugs(old(table.rows)) ==> UniqueSlugs(table.rows)
    {
      var base := table.slugify(name);
      var candidate := base;
      ghost var k := 0;
      while candidate in SlugsOfOthers(table.rows, pk)
        invariant unchanged(this) && unchanged(table)
        invariant candidate == Suffixed(base, k)
        invariant forall j :: 0 <= j < k ==> Suffixed(base, j) in SlugsOfOthers(table.rows, pk)
        decreases |TakenAtLeast(SlugsOfOthers(table.rows, pk), |candidate|)|
      {
        LongerCandidatesShrink(SlugsOfOthers(table.rows, pk), candidate);
        SuffixedStep(base, k);
        candidate := candidate + "-1";
        k := k + 1;
      }
      LeastFreeSuffixIsUnique(SlugsOfOthers(table.rows, pk), base, k);
      ghost var others := SlugsOfOthers(table.rows, pk);
      ghost var before := table.rows;
      ghost var oldPk := pk;
      slug := candidate;
      var stored := table.Persist(pk, SlugRow(name, slug));
      pk := Some(stored);
      forwarded := ForwardedSaveOptions;
      forall p | p in before && p != stored
        ensures before[p].slug in others
      {
        assert Some(p) != oldPk;
      }
    }
  }
}

=== FILE: statistics.dfy ===
/** `ThreadStatisticListView.get_queryset` (apps/views.py): the requesting
    user's referral threads, optionally limited to those with an order since
    a period's start, each annotated with its number of NEW orders in that
    window, plus a rollup of visit counts and NEW counts.

    Instants are integer microseconds of naive local time; a `Moment` is the
    reading of `datetime.now()` with the calendar facts the period map
    needs. Time zones and daylight saving are not modelled. */
module Statistics {
  import opened Values
  import opened Shop

  const SecondMicros: int := 1_000_000
  const MinuteMicros: int := 60_000_000
  const HourMicros: int := 3_600_000_000
  const DayMicros: int := 86_400_000_000

  /** `datetime.now()`: the day counted from 1970-01-01, the time of day,
      the day of the month and the length of the current month. */
  datatype Moment = Moment(
    epochDay: int,
    hour: nat,
    minute: nat,
    second: nat,
    microsecond: nat,
    day: nat,
    monthLength: nat)
  {
    ghost predicate Valid() {
      && hour < 24 && minute < 60 && second < 60 && microsecond < 1_000_000
      && 28 <= monthLength <= 31 && 1 <= day <= monthLength
    }

    function Instant(): int {
      epochDay * DayMicros + hour * HourMicros + minute * MinuteMicros + second * SecondMicros + microsecond
    }

    /** `weekday()`: Monday is 0; 1970-01-01 was a Thursday. */
    function Weekday(): nat {
      (epochDay + 3) % 7
    }
  }

  /** What `replace(day=30)` raises in a month without a 30th day. */
  const ShortMonthMessage := "day is out of range for month"

  /** The `periods` dictionary. It is built in full before the lookup, so
      the `replace(day=30)` of its last entry raises in a month shorter than
      30 days, whichever period was asked for. */
  function Periods(now: Moment): Result<map<string, int>, Error> {
    if now.monthLength < 30 then Failure(ValueError(ShortMonthMessage))
    else
      var midnight := now.Instant() - (now.hour * HourMicros + now.minute * MinuteMicros + now.second * SecondMicros);
      Success(map[
        "today" := midnight,
        "last_day" := midnight - DayMicros,
        "wekly" := now.Instant() - now.Weekday() * DayMicros,
        "monthly" := now.Instant() + (30 - now.day) * DayMicros])
  }

  /** `periods.get(period)`: the start of the window, or none. */
  function StartDate(now: Moment, period: Option<string>): Result<Option<int>, Error> {
    match Periods(now)
    case Failure(e) => Failure(e)
    case Success(starts) =>
      Success(if period.Some? && period.value in starts then Some(starts[period.value]) else None)
  }

  /** The view raises exactly in months shorter than 30 days, for every
      period, including none. */
  lemma StartDateFailsInShortMonths(now: Moment, period: Option<string>)
    ensures StartDate(now, period).Failure? <==> now.monthLength < 30
    ensures StartDate(now, period).Failure? ==> StartDate(now, period).error == ValueError(ShortMonthMessage)
  {
  }

  /** A token other than the four keys, a missing token, and the spelling
      "weekly" all give no start, hence no time filter. */
  lemma UnknownPeriodHasNoStart(now: Moment, period: Option<string>)
    requires now.monthLength >= 30
    requires period.None? || period.value !in {"today", "last_day", "wekly", "monthly"}
    ensures StartDate(now, period) == Success(None)
    ensures StartDate(now, Some("weekly")) == Success(None)
  {
  }

  lemma MondayOfTheWeek(e: int)
    ensures (e - (e + 3) % 7 + 3) % 7 == 0
  {
    var q := (e + 3) / 7;
    assert e + 3 == 7 * q + (e + 3) % 7;
    assert e - (e + 3) % 7 + 3 == 7 * q;
  }

  /** The four starts, stated as the datetime each one is:
      "today" is now with hour, minute and second zeroed and the microseconds
      kept; "last_day" is the same on the previous day; "wekly" is now moved
      back to this week's Monday, keeping the time of day; "monthly" is now
      moved to the 30th of the month. */
  lemma PeriodStarts(now: Moment)
    requires now.Valid() && now.monthLength >= 30
    ensures StartDate(now, Some("today")) == Success(Some(now.(hour := 0, minute := 0, second := 0).Instant()))
    ensures StartDate(now, Some("last_day"))
            == Success(Some(now.(epochDay := now.epochDay - 1, hour := 0, minute := 0, second := 0).Instant()))
    ensures StartDate(now, Some("wekly")) == Success(Some(now.(epochDay := now.epochDay - now.Weekday()).Instant()))
    ensures now.(epochDay := now.epochDay - now.Weekday()).Weekday() == 0
    ensures StartDate(now, Some("monthly"))
            == Success(Some(now.(epochDay := now.epochDay + 30 - now.day, day := 30).Instant()))
  {
    MondayOfTheWeek(now.epochDay);
  }

  /** The "today" window starts within the current day, at most a second
      after midnight, so an order placed before midnight is outside it; an
      order at midnight itself is outside it too when the clock's
      microseconds are not zero. */
  lemma TodayWindow(now: Moment)
    requires now.Valid() && now.monthLength >= 30
    ensures var start := StartDate(now, Some("today")).value.value;
            && now.epochDay * DayMicros <= start < now.epochDay * DayMicros + SecondMicros
            && start <= now.Instant()
            && (now.microsecond > 0 ==> now.epochDay * DayMicros < start)
  {
  }

  /** Up to the 30th, the "monthly" start is not before now, so no order
      placed before the request falls in the window. */
  lemma MonthlyWindowIsInTheFuture(now: Moment, orderedAt: int)
    requires now.Valid() && now.monthLength >= 30 && now.day <= 30
    requires orderedAt < now.Instant()
    ensures orderedAt < StartDate(now, Some("monthly")).value.value
  {
  }

  /** One row of the queryset: a thread and its `new` annotation. */
  datatype ThreadStat = ThreadStat(thread: Thread, newCount: nat)

  /** The name `annotate(new=...)` gives the per-thread count. */
  const NewAnnotation := "new"

  /** `Sum(Order.StatusType.NEW)` sums the annotation named by the NEW
      status's value, which is the `new` annotation. */
  lemma NewStatusNamesTheAnnotation()
    ensures Status.New.Value() == NewAnnotation
  {
  }

  predicate InWindow(o: Order, start: Option<int>) {
    start.None? || o.orderedAt >= start.value
  }

  /** The orders of thread `pk` inside the window: the join rows that
      `filter(orders__ordered_at__gte=start)` keeps for that thread. */
  function WindowOrders(orders: seq<Order>, pk: nat, start: Option<int>): (r: seq<Order>)
    ensures forall o :: o in r <==> o in orders && o.thread == Some(pk) && InWindow(o, start)
  {
    if orders == [] then []
    else
      (if orders[0].thread == Some(pk) && InWindow(orders[0], start) then [orders[0]] else [])
        + WindowOrders(orders[1..], pk, start)
  }

  /** `Count('orders', filter=Q(orders__status=NEW))` over given orders. */
  function CountNew(orders: seq<Order>): nat {
    if orders == [] then 0
    else (if orders[0].status == New then 1 else 0) + CountNew(orders[1..])
  }

  /** The annotated queryset in table order: the user's threads, with a
      start only those with an order in the window, each with its count of
      NEW orders in the window. */
  function Annotated(threads: seq<Thread>, orders: seq<Order>, user: nat, start: Option<int>): seq<ThreadStat> {
    if threads == [] then []
    else
      var t := threads[0];
      var window := WindowOrders(orders, t.pk, start);
      (if t.user == user && (start.None? || window != []) then [ThreadStat(t, CountNew(window))] else [])
        + Annotated(threads[1..], orders, user, start)
  }

  /** A row is in the queryset exactly when its thread is one of the
      requester's, has (given a start) at least one order since the start,
      and carries the count of that thread's NEW orders in the window.
      Without a start every thread of the user appears. */
  lemma {:induction false} AnnotatedRows(threads: seq<Thread>, orders: seq<Order>, user: nat, start: Option<int>, row: ThreadStat)
    ensures row in Annotated(threads, orders, user, start)
            <==> && row.thread in threads
                 && row.thread.user == user
                 && (start.None? || exists o :: o in orders && o.thread == Some(row.thread.pk) && o.orderedAt >= start.value)
                 && row.newCount == CountNew(WindowOrders(orders, row.thread.pk, start))
  {
    if threads != [] {
      AnnotatedRows(threads[1..], orders, user, start, row);
      var window := WindowOrders(orders, threads[0].pk, start);
      if start.Some? && (exists o :: o in orders && o.thread == Some(threads[0].pk) && o.orderedAt >= start.value) {
        var o :| o in orders && o.thread == Some(threads[0].pk) && o.orderedAt >= start.value;
        assert o in window;
      }
      assert threads == [threads[0]] + threads[1..];
    }
  }

  /** Is `o` a NEW order, inside the window, on one of the threads `pks`? */
  predicate IsNewOrderOf(o: Order, pks: set<nat>, start: Option<int>) {
    o.status == New && o.thread.Some? && o.thread.value in pks && InWindow(o, start)
  }

  /** The number of NEW orders inside the window on the threads `pks`,
      counted over the order table directly. */
  function NewOrdersOf(orders: seq<Order>, pks: set<nat>, start: Option<int>): nat {
    if orders == [] then 0
    else (if IsNewOrderOf(orders[0], pks, start) then 1 else 0) + NewOrdersOf(orders[1..], pks, start)
  }

  lemma {:induction false} NewOrdersOfDisjointUnion(orders: seq<Order>, a: set<nat>, b: set<nat>, start: Option<int>)
    requires a !! b
    ensures NewOrdersOf(orders, a + b, start) == NewOrdersOf(orders, a, start) + NewOrdersOf(orders, b, start)
  {
    if orders != [] {
      NewOrdersOfDisjointUnion(orders[1..], a, b, start);
    }
  }

  lemma {:induction false} NewOrdersOfOneThread(orders: seq<Order>, pk: nat, start: Option<int>)
    ensures NewOrdersOf(orders, {pk}, start) == CountNew(WindowOrders(orders, pk, start))
  {
    if orders != [] {
      NewOrdersOfOneThread(orders[1..], pk, start);
      var head := if orders[0].thread == Some(pk) && InWindow(orders[0], start) then [orders[0]] else [];
      assert WindowOrders(orders, pk, start) == head + WindowOrders(orders[1..], pk, start);
      CountNewOfConcat(head, WindowOrders(orders[1..], pk, start));
    }
  }

  lemma {:induction false} CountNewOfConcat(a: seq<Order>, b: seq<Order>)
    ensures CountNew(a + b) == CountNew(a) + CountNew(b)
  {
    if a == [] {
      assert a + b == b;
    } else {
      assert (a + b)[1..] == a[1..] + b;
      CountNewOfConcat(a[1..], b);
    }
  }

  /** The primary keys of the user's threads. */
  function ThreadsOf(threads: seq<Thread>, user: nat): set<nat> {
    set t | t in threads && t.user == user :: t.pk
  }

  /** Primary keys are unique. */
  ghost predicate DistinctKeys(threads: seq<Thread>) {
    forall i, j :: 0 <= i < j < |threads| ==> threads[i].pk != threads[j].pk
  }

  function SumVisits(rows: seq<ThreadStat>): int {
    if rows == [] then 0 else rows[0].thread.visitCount + SumVisits(rows[1..])
  }

  function SumNew(rows: seq<ThreadStat>): nat {
    if rows == [] then 0 else rows[0].newCount + SumNew(rows[1..])
  }

  lemma {:induction false} SumNewOfConcat(a: seq<ThreadStat>, b: seq<ThreadStat>)
    ensures SumNew(a + b) == SumNew(a) + SumNew(b)
  {
    if a == [] {
      assert a + b == b;
    } else {
      assert (a + b)[1..] == a[1..] + b;
      SumNewOfConcat(a[1..], b);
    }
  }

  /** The tail of a list with distinct keys has distinct keys, none of them
      the head's. */
  lemma DistinctKeysOfTail(threads: seq<Thread>)
    requires DistinctKeys(threads) && threads != []
    ensures DistinctKeys(threads[1..])
    ensures forall u :: u in threads[1..] ==> u.pk != threads[0].pk
  {
    var rest := threads[1..];
    forall i, j | 0 <= i < j < |rest| ensures rest[i].pk != rest[j].pk {
      assert rest[i] == threads[i + 1] && rest[j] == threads[j + 1];
    }
    forall u | u in rest ensures u.pk != threads[0].pk {
      var k :| 0 <= k < |rest| && rest[k] == u;
      assert threads[k + 1] == u;
    }
  }

  /** The NEW counts of the queryset add up to the number of NEW orders in
      the window on all of the user's threads: a thread dropped for having
      no order in the window has no NEW order there either. */
  lemma {:induction false} SumNewCountsUsersNewOrders(threads: seq<Thread>, orders: seq<Order>, user: nat, start: Option<int>)
    requires DistinctKeys(threads)
    ensures SumNew(Annotated(threads, orders, user, start)) == NewOrdersOf(orders, ThreadsOf(threads, user), start)
  {
    if threads == [] {
      assert ThreadsOf(threads, user) == {};
      NewOrdersOfNone(orders, start);
    } else {
      var t := threads[0];
      var rest := threads[1..];
      DistinctKeysOfTail(threads);
      SumNewCountsUsersNewOrders(rest, orders, user, start);
      var window := WindowOrders(orders, t.pk, start);
      var head := if t.user == user && (start.None? || window != []) then [ThreadStat(t, CountNew(window))] else [];
      assert Annotated(threads, orders, user, start) == head + Annotated(rest, orders, user, start);
      SumNewOfConcat(head, Annotated(rest, orders, user, start));
      assert threads == [t] + rest;
      if t.user == user {
        assert ThreadsOf(threads, user) == {t.pk} + ThreadsOf(rest, user);
        NewOrdersOfDisjointUnion(orders, {t.pk}, ThreadsOf(rest, user), start);
        NewOrdersOfOneThread(orders, t.pk, start);
        assert SumNew(head) == CountNew(window);
      } else {
        assert ThreadsOf(threads, user) == ThreadsOf(rest, user);
      }
    }
  }

  lemma {:induction false} NewOrdersOfNone(orders: seq<Order>, start: Option<int>)
    ensures NewOrdersOf(orders, {}, start) == 0
  {
    if orders != [] {
      NewOrdersOfNone(orders[1..], start);
    }
  }

  /** The aggregate stashed on the queryset as `qs.thread`. */
  datatype Rollup = Rollup(allVisit: Option<int>, newAll: Option<int>)

  /** `aggregate(all_visit=Sum('visit_count'), new_all=Sum('new'))`: SQL
      sums over no rows are NULL. */
  function RollupOf(rows: seq<ThreadStat>): Rollup {
    if rows == [] then Rollup(None, None) else Rollup(Some(SumVisits(rows)), Some(SumNew(rows)))
  }

  /** The queryset the view returns, with its `thread` attribute. */
  datatype ThreadQuerySet = ThreadQuerySet(rows: seq<ThreadStat>, thread: Rollup)

  /** `get_queryset` for `user` at `now`, asked for `period`. */
  function GetQueryset(now: Moment, period: Option<string>, user: nat, threads: seq<Thread>, orders: seq<Order>)
    : Result<ThreadQuerySet, Error>
  {
    match StartDate(now, period)
    case Failure(e) => Failure(e)
    case Success(start) =>
      var rows := Annotated(threads, orders, user, start);
      Success(ThreadQuerySet(rows, RollupOf(rows)))
  }

  /** The rollup is none exactly when no thread is selected; otherwise
      `new_all` is the number of NEW orders in the window on all of the
      user's threads, and `all_visit` sums the selected threads' visits. */
  lemma GetQuerysetRollup(now: Moment, period: Option<string>, user: nat, threads: seq<Thread>, orders: seq<Order>)
    requires DistinctKeys(threads)
    requires GetQueryset(now, period, user, threads, orders).Success?
    ensures var qs := GetQueryset(now, period, user, threads, orders).value;
            var start := StartDate(now, period).value;
            && (qs.thread.allVisit.None? <==> qs.rows == [])
            && (qs.thread.newAll.None? <==> qs.rows == [])
            && (qs.rows != [] ==> qs.thread.allVisit == Some(SumVisits(qs.rows)))
            && (qs.rows != [] ==> qs.thread.newAll == Some(NewOrdersOf(orders, ThreadsOf(threads, user), start)))
  {
    SumNewCountsUsersNewOrders(threads, orders, user, StartDate(now, period).value);
  }

  /** The worked example: user 1's thread with 5 visits has a NEW and a
      DELIVERED order placed today; asked for "today", the view lists that
      thread with one NEW order and rolls up 5 visits and 1 NEW order. */
  lemma TodayExample()
    ensures var now := Moment(20000, 15, 30, 0, 0, 10, 31);
            var t := Thread(7, "spring sale", 1, 3, 5);
            var placed := 20000 * DayMicros + 9 * HourMicros;
            var orders := [Order(Some(1), Some(3), Some(7), New, placed),
                           Order(Some(2), Some(3), Some(7), Delivered, placed)];
            GetQueryset(now, Some("today"), 1, [t], orders)
              == Success(ThreadQuerySet([ThreadStat(t, 1)], Rollup(Some(5), Some(1))))
  {
    var now := Moment(20000, 15, 30, 0, 0, 10, 31);
    var t := Thread(7, "spring sale", 1, 3, 5);
    var placed := 20000 * DayMicros + 9 * HourMicros;
    var orders := [Order(Some(1), Some(3), Some(7), New, placed),
                   Order(Some(2), Some(3), Some(7), Delivered, placed)];
    assert StartDate(now, Some("today")) == Success(Some(20000 * DayMicros));
    assert WindowOrders(orders[1..], 7, Some(20000 * DayMicros)) == [orders[1]];
    assert WindowOrders(orders, 7, Some(20000 * DayMicros)) == orders;
    assert CountNew(orders[1..]) == 0;
    assert CountNew(orders) == 1;
    assert [t][1..] == [];
    assert Annotated([t], orders, 1, Some(20000 * DayMicros)) == [ThreadStat(t, 1)];
  }
}

=== FILE: users.dfy ===
/** `CustomUserManager` and the User table (apps/models.py). Users are
    identified by a phone number that the table keeps unique; the manager
    validates the phone number, fills in the staff and superuser flags and
    stores a hash of the password. `make_password`, `check_password` and
    `normalize_email` are foreign functions supplied with the table. */
module Users {
  import opened Values

  /** A stored user; `fields` holds every other column by name
      (`is_staff`, `is_superuser`, `first_name`, `district`, ...). */
  datatype UserRow = UserRow(phone: string, email: string, password: string, fields: map<string, Value>)

  /** The column defaults a new User instance starts from. */
  const ModelDefaults: map<string, Value> :=
    map["is_staff" := Bool(false), "is_superuser" := Bool(false), "is_active" := Bool(true)]

  const MissingPhoneMessage := "The given username must be set"
  const NotStaffMessage := "Superuser must have is_staff=True."
  const NotSuperuserMessage := "Superuser must have is_superuser=True."
  const DuplicatePhoneMessage := "UNIQUE constraint failed: apps_user.phone_number"

  /** No two users share a phone number (`unique=True`). */
  ghost predicate PhonesUnique(rows: seq<UserRow>) {
    forall i, j :: 0 <= i < j < |rows| ==> rows[i].phone != rows[j].phone
  }

  /** The primary key of the first user with this phone number, if any. */
  function IndexOfPhone(rows: seq<UserRow>, phone: string): (r: Option<nat>)
    ensures r.Some? ==> r.value < |rows| && rows[r.value].phone == phone
    ensures r.Some? ==> forall i :: 0 <= i < r.value ==> rows[i].phone != phone
    ensures r.None? <==> forall i :: 0 <= i < |rows| ==> rows[i].phone != phone
  {
    if rows == [] then None
    else if rows[0].phone == phone then Some(0)
    else match IndexOfPhone(rows[1..], phone)
      case None => None
      case Some(i) => Some(i + 1)
  }

  /** Python's `not phone_number`: None and "" are rejected. */
  predicate Falsy(phone: Option<string>) {
    phone == None || phone == Some("")
  }

  /** `dict.setdefault`: `key` gets `default` only when it is absent. */
  function SetDefault(m: map<string, Value>, key: string, default: Value): (r: map<string, Value>)
    ensures r.Keys == m.Keys + {key}
    ensures r[key] == if key in m then m[key] else default
    ensures forall k :: k in m && k != key ==> r[k] == m[k]
  {
    if key in m then m else m[key := default]
  }

  /** The extra fields `create_user` passes on. */
  function UserExtraFields(extra: map<string, Value>): map<string, Value> {
    SetDefault(SetDefault(extra, "is_staff", Bool(false)), "is_superuser", Bool(false))
  }

  /** The extra fields `create_superuser` passes on, or the error it raises:
      each flag must end up exactly `True` (`is not True`), staff first. */
  function SuperuserExtraFields(extra: map<string, Value>): Result<map<string, Value>, Error> {
    var fields := SetDefault(SetDefault(extra, "is_staff", Bool(true)), "is_superuser", Bool(true));
    if fields["is_staff"] != Bool(true) then Failure(ValueError(NotStaffMessage))
    else if fields["is_superuser"] != Bool(true) then Failure(ValueError(NotSuperuserMessage))
    else Success(fields)
  }

  /** `create_user` sets each flag to False only when the caller left it
      out, keeps what the caller gave (even a non-boolean), and passes every
      other extra field through. */
  lemma UserFlagsDefaultToFalse(extra: map<string, Value>)
    ensures forall flag :: flag in {"is_staff", "is_superuser"} ==>
              UserExtraFields(extra)[flag] == if flag in extra then extra[flag] else Bool(false)
    ensures UserExtraFields(extra).Keys == extra.Keys + {"is_staff", "is_superuser"}
    ensures forall k :: k in extra && k !in {"is_staff", "is_superuser"} ==> UserExtraFields(extra)[k] == extra[k]
  {
  }

  /** `create_superuser` succeeds exactly when neither flag is given as
      anything but `True`; then both are `True` and the other fields pass
      through. A truthy non-boolean such as 1 is rejected. */
  lemma SuperuserFlagsMustBeTrue(extra: map<string, Value>)
    ensures SuperuserExtraFields(extra).Success? <==>
              && ("is_staff" !in extra || extra["is_staff"] == Bool(true))
              && ("is_superuser" !in extra || extra["is_superuser"] == Bool(true))
    ensures "is_staff" in extra && extra["is_staff"] != Bool(true) ==>
              SuperuserExtraFields(extra) == Failure(ValueError(NotStaffMessage))
    ensures SuperuserExtraFields(extra).Success? ==>
              var fields := SuperuserExtraFields(extra).value;
              && fields["is_staff"] == Bool(true) && fields["is_superuser"] == Bool(true)
              && forall k :: k in extra ==> fields[k] == extra[k]
  {
  }

  /** The User table, keyed by position (users are never deleted here). */
  class UserTable {
    var rows: seq<UserRow>
    const makePassword: Option<string> -> string
    const checkPassword: (string, string) -> bool
    const normalizeEmail: Option<string> -> string

    ghost predicate Valid()
      reads this
    {
      PhonesUnique(rows)
    }

    constructor (
      makePassword: Option<string> -> string,
      checkPassword: (string, string) -> bool,
      normalizeEmail: Option<string> -> string)
      ensures Valid() && rows == []
      ensures this.makePassword == makePassword
      ensures this.checkPassword == checkPassword
      ensures this.normalizeEmail == normalizeEmail
    {
      rows := [];
      this.makePassword := makePassword;
      this.checkPassword := checkPassword;
      this.normalizeEmail := normalizeEmail;
    }

    /** Saving a new User: the unique constraint on the phone number
        rejects a duplicate; otherwise the row gets the next key. */
    method Insert(row: UserRow) returns (r: Result<nat, Error>)
      requires Valid()
      modifies this
      ensures Valid()
      ensures old(IndexOfPhone(rows, row.phone)).Some? ==>
                r == Failure(IntegrityError(DuplicatePhoneMessage)) && rows == old(rows)
      ensures old(IndexOfPhone(rows, row.phone)).None? ==>
                r == Success(old(|rows|)) && rows == old(rows) + [row]
    {
      if IndexOfPhone(rows, row.phone).Some? {
        r := Failure(IntegrityError(DuplicatePhoneMessage));
      } else {
        r := Success(|rows|);
        rows := rows + [row];
      }
    }

    /** `_create_user`: reject a missing phone number, otherwise build the
        user from the model defaults and the extra fields, store the hash of
        the password (never the password itself) and save. */
    method CreateUserRecord(phone: Option<string>, email: Option<string>, password: Option<string>,
                            extra: map<string, Value>) returns (r: Result<nat, Error>)
      requires Valid()
      modifies this
      ensures Valid()
      ensures Falsy(phone) ==> r == Failure(ValueError(MissingPhoneMessage)) && rows == old(rows)
      ensures !Falsy(phone) && old(IndexOfPhone(rows, phone.value)).Some? ==>
                r == Failure(IntegrityError(DuplicatePhoneMessage)) && rows == old(rows)
      ensures !Falsy(phone) && old(IndexOfPhone(rows, phone.value)).None? ==>
                && r == Success(old(|rows|))
                && rows == old(rows) + [UserRow(phone.value, normalizeEmail(email), makePassword(password),
                                                ModelDefaults + extra)]
    {
      if Falsy(phone) {
        return Failure(ValueError(MissingPhoneMessage));
      }
      var normalized := normalizeEmail(email);
      var row := UserRow(phone.value, normalized, makePassword(password), ModelDefaults + extra);
      r := Insert(row);
    }

    /** `create_user`: default both flags to False, then `_create_user`. */
    method CreateUser(phone: Option<string>, email: Option<string>, password: Option<string>,
                      extra: map<string, Value>) returns (r: Result<nat, Error>)
      requires Valid()
      modifies this
      ensures Valid()
      ensures Falsy(phone) ==> r == Failure(ValueError(MissingPhoneMessage)) && rows == old(rows)
      ensures !Falsy(phone) && old(IndexOfPhone(rows, phone.value)).Some? ==>
                r == Failure(IntegrityError(DuplicatePhoneMessage)) && rows == old(rows)
      ensures r.Success? ==>
                && r.value == old(|rows|)
                && rows == old(rows) + [UserRow(phone.value, normalizeEmail(email), makePassword(password),
                                                ModelDefaults + UserExtraFields(extra))]
      ensures r.Failure? ==> rows == old(rows)
      ensures r.Failure? <==> Falsy(phone) || old(IndexOfPhone(rows, phone.value)).Some?
    {
      var fields := UserExtraFields(extra);
      r := CreateUserRecord(phone, email, password, fields);
    }

    /** `create_superuser`: default both flags to True, insist that both are
        exactly True, then `_create_user`. The flag checks come before the
        phone-number check. */
    method CreateSuperuser(phone: Option<string>, email: Option<string>, password: Option<string>,
                           extra: map<string, Value>) returns (r: Result<nat, Error>)
      requires Valid()
      modifies this
      ensures Valid()
      ensures SuperuserExtraFields(extra).Failure? ==>
                r == Failure(SuperuserExtraFields(extra).error) && rows == old(rows)
      ensures SuperuserExtraFields(extra).Success? && Falsy(phone) ==>
                r == Failure(ValueError(MissingPhoneMessage)) && rows == old(rows)
      ensures SuperuserExtraFields(extra).Success? && !Falsy(phone) && old(IndexOfPhone(rows, phone.value)).Some? ==>
                r == Failure(IntegrityError(DuplicatePhoneMessage)) && rows == old(rows)
      ensures r.Failure? <==> SuperuserExtraFields(extra).Failure? || Falsy(phone) || old(IndexOfPhone(rows, phone.value)).Some?
      ensures r.Success? ==>
                && SuperuserExtraFields(extra).Success?
                && r.value == old(|rows|)
                && rows == old(rows) + [UserRow(phone.value, normalizeEmail(email), makePassword(password),
                                                ModelDefaults + SuperuserExtraFields(extra).value)]
      ensures r.Failure? ==> rows == old(rows)
    {
      var checked := SuperuserExtraFields(extra);
      if checked.Failure? {
        return Failure(checked.error);
      }
      r := CreateUserRecord(phone, email, password, checked.value);
    }

    /** `User.objects.filter(id=pk).update(**data)`: overwrite the named
        fields of user `pk`; no row matches a key that is not stored. */
    method Update(pk: nat, data: map<string, Value>)
      requires Valid()
      modifies this
      ensures Valid()
      ensures pk < |old(rows)| ==> rows == old(rows)[pk := old(rows)[pk].(fields := old(rows)[pk].fields + data)]
      ensures pk >= |old(rows)| ==> rows == old(rows)
    {
      if pk < |rows| {
        rows := rows[pk := rows[pk].(fields := rows[pk].fields + data)];
      }
    }
  }
}

=== FILE: values.dfy ===
/** Shared value types of the storefront model: optional values, error
    returns, and the loosely typed field values that Django forms and model
    managers pass around in dictionaries (`cleaned_data`, `extra_fields`). */
module Values {

  datatype Option<+T> = None | Some(value: T)

  datatype Result<+T, +E> = Success(value: T) | Failure(error: E)

  /** The exceptions the core raises: `ValueError` from the user manager and
      the period map, `IntegrityError` from a violated unique constraint. */
  datatype Error = ValueError(message: string) | IntegrityError(message: string)

  /** A field value as it appears in a form's `cleaned_data` or in a
      manager's `extra_fields`; `Instance` is a model instance (a foreign
      key value such as a District), identified by its primary key. */
  datatype Value = Null | Bool(b: bool) | Int(i: int) | Str(s: string) | Instance(pk: nat)

  /** Python truthiness: None, False, 0 and "" are falsy, model instances
      are always truthy. */
  predicate Truthy(v: Value) {
    match v
    case Null => false
    case Bool(b) => b
    case Int(i) => i != 0
    case Str(s) => s != ""
    case Instance(_) => true
  }
}

=== FILE: wishlist.dfy ===
/** `wishlist_view` (apps/views.py): toggle a product on the requesting
    user's wishlist and answer whether it is on the list afterwards. */
module Wishlist {
  import opened Shop

  /** The table after a toggle of `row`, and the response: every copy of a
      present pair is deleted (response false), an absent pair is added
      once (response true). */
  function Toggled(rows: seq<WishRow>, row: WishRow): (seq<WishRow>, bool) {
    if row in rows then (Without(rows, row), false) else (rows + [row], true)
  }

  /** The response is true exactly when the pair is present afterwards, and
      the toggle flips the pair's presence. */
  lemma ToggleResponseIsPresence(rows: seq<WishRow>, row: WishRow)
    ensures Toggled(rows, row).1 <==> row in Toggled(rows, row).0
    ensures Toggled(rows, row).1 <==> row !in rows
  {
  }

  /** A toggle changes no other pair's rows. */
  lemma ToggleLeavesOtherPairs(rows: seq<WishRow>, row: WishRow, other: WishRow)
    requires other != row
    ensures multiset(Toggled(rows, row).0)[other] == multiset(rows)[other]
  {
  }

  /** Toggling twice restores the pair's presence and gives the opposite
      responses; when the pair was stored at most once, the table's rows are
      restored too. A pair stored twice comes back once. */
  lemma ToggleTwiceRestoresPresence(rows: seq<WishRow>, row: WishRow)
    ensures row in Toggled(Toggled(rows, row).0, row).0 <==> row in rows
    ensures Toggled(Toggled(rows, row).0, row).1 == !Toggled(rows, row).1
    ensures multiset(rows)[row] <= 1 ==> multiset(Toggled(Toggled(rows, row).0, row).0) == multiset(rows)
  {
    var once := Toggled(rows, row).0;
    var twice := Toggled(once, row).0;
    if row in rows {
      assert twice == once + [row];
      if multiset(rows)[row] <= 1 {
        assert multiset(rows)[row] == 1;
        forall x ensures multiset(twice)[x] == multiset(rows)[x] {
          if x != row {
            assert multiset(once)[x] == multiset(rows)[x];
          }
        }
      }
    } else {
      assert once == rows + [row];
      assert multiset(once)[row] == 1;
      assert twice == Without(once, row);
      forall x ensures multiset(twice)[x] == multiset(rows)[x] {
        if x == row {
          assert multiset(rows)[row] == 0;
        }
      }
    }
  }

  /** The view for `user` posting `product`. */
  method WishlistView(table: WishListTable, user: nat, product: nat) returns (response: bool)
    modifies table
    ensures (table.rows, response) == Toggled(old(table.rows), WishRow(product, user))
    ensures response <==> table.Contains(user, product)
    ensures response <==> !old(table.Contains(user, product))
  {
    response := false;
    if table.Contains(user, product) {
      table.DeleteMatching(user, product);
    } else {
      table.Create(user, product);
      response := true;
    }
  }
}
